=== FILE: README.md ===
# Click analytics and link logic of a URL shortener

This is a Dafny model of the core of the shortener's backend (`backend/app.py`).
It covers:

- the geolocation resolver, with its private-address classifier and its
  mapping of provider answers;
- the client fingerprint that identifies a visitor;
- the stats aggregation: unique visitors, returning visitors, active links and
  the most frequent location;
- the redirect endpoint, which records a click and bumps the link's counter;
- the two shorten endpoints, which insert a new link;
- the signup credential checks and the URL-scheme normalisation.

MongoDB's `urls` and `clicks` collections are in-memory sequences. A link's
`_id` is its position in the link table. Times are integer seconds. The SHA-256
digest and the HTTP call to the geolocation provider are passed in as function
parameters, so the model says what is hashed and how each answer is mapped.
It does not model how a hash is computed or how the provider works.
`generate_short_code` is replaced by a given sequence of drawn codes.
Some of the database and library calls that the endpoints' `except` clauses
catch are parameters, so their error paths are modelled too. For the redirect,
these are the link lookup, the click insert and the counter update. For
shorten, they are the owner lookup, the lookups of drawn codes, the link
insert and the QR code. The stats queries are assumed to succeed (see
"## Left out").

Modules, in dependency order:

- `Wrappers`: `Option` and `Result`.
- `Text`: string prefixes, and Python truthiness of an optional string.
- `Documents`: the stored documents.
- `Geolocation`: the classifier and the resolver.
- `AddressRanges`: what the prefix classifier means on dotted quads.
- `Fingerprint`: the fingerprint input.
- `Validation`: the signup and long-URL checks.
- `StatsSpec` and `StatsProperties`: the stats endpoint as functions, and the
  facts proved about them.
- `Stats`: the endpoint's loop as methods, proved equal to `StatsSpec.StatsOf`.
- `LinkStore`: the redirect and shorten endpoints as step functions with their
  lemmas, and a `Store` class that performs the same writes in place.

The loopback entry `127.0.0.1` sits in the same `startswith` tuple as the
network prefixes, so it is matched as a prefix rather than as one exact
address. The model follows the code: `127.0.0.12` is treated as private
and `127.0.0.2` is looked up (`Geolocation.LoopbackIsAPrefix`,
`Geolocation.OtherLoopbackIsPublic`).

## Model

| member | source | states |
|---|---|---|
| Geolocation.IsPrivateAddress | backend/app.py:80-84 | The skip condition: the address starts with one of the 19 listed prefixes, or is `localhost`. What it accepts on dotted quads is stated by `AddressRanges.PrivateQuadIffReserved`. |
| Geolocation.GetWithDefault | backend/app.py:95-96 | `data.get(key, "Unknown")`: the default exactly when the member is missing (or is that very text), None exactly when it is `null`, and the string itself otherwise. |
| Geolocation.GetGeolocation | backend/app.py:78-106 | A private address, or `localhost`, gets the Local/Private pair. Otherwise a successful provider answer gives its city and country: a missing member becomes "Unknown" and a `null` member stays None. Any other answer gives the Unknown pair. |
| Geolocation.FromProvider | backend/app.py:92-106 | A success status maps to the answer's members through `GetWithDefault`. A non-success status, a failed request or an unreadable body maps to Unknown/Unknown. |
| Geolocation.PrivateAddressSkipsLookup | backend/app.py:84-86 | For a private address the result is the same whatever the provider would answer, so no lookup is made. |
| Geolocation.GeolocationKinds | backend/app.py:84-106 | The result is exactly one of three kinds: the private pair, the unknown pair after a failure, or the provider's fields. |
| Geolocation.LocalPrivateOnlyForPrivateAddresses | backend/app.py:84-106 | A public address gets the Local/Private sentinel only if the provider itself reports that text. |
| Geolocation.SamplePrivateAddresses | backend/app.py:80-84 | 10.0.0.5, 172.20.3.4, 192.168.1.1, 127.0.0.1 and localhost are classified private. |
| Geolocation.Block172Dot32IsPublic | backend/app.py:80-84 | No address starting with 172.32. is classified private. |
| Geolocation.OtherLoopbackIsPublic | backend/app.py:80-84 | 127.0.0.2 is not classified private. |
| Geolocation.LoopbackIsAPrefix | backend/app.py:80-84 | 127.0.0.12 is classified private, because the loopback entry is a prefix. |
| AddressRanges.PrivateQuadIffReserved | backend/app.py:80-84 | On a dotted quad of octets, the classifier accepts exactly the blocks of section 3 of RFC 1918, plus 127.0.0.d for d in 1, 10-19 or 100-199. |
| AddressRanges.EntryMeaning | backend/app.py:80-83 | For each entry of the prefix list, a dotted quad starts with that entry exactly when its octets match the entry's block. |
| AddressRanges.FieldPrefix | backend/app.py:84 | For digit fields, a dotted string starts with a dotted prefix exactly when the first fields are equal and the rest starts with the rest. |
| AddressRanges.LeadingOne | backend/app.py:83-84 | The decimal text of an octet starts with "1" exactly when the octet is 1, 10-19 or 100-199. |
| Fingerprint.HashInput | backend/app.py:110-111 | The hashed string: the address, a '-', then the effective user agent. `Fingerprint.HashInputSplits` proves that it splits back into both parts when the address has no '-'. |
| Fingerprint.ClientUid | backend/app.py:108-112 | `generate_client_uid`: the digest applied to exactly `HashInput`, so the fingerprint depends on the address and the effective user agent only. Its properties are stated by `Fingerprint.MissingUserAgentIsUnknown` and `Fingerprint.SameFingerprintSameVisitor`. |
| Fingerprint.EffectiveUserAgent | backend/app.py:110 | The hashed user agent is never empty. It is the header when the header is present and non-empty, and "Unknown" otherwise. |
| Fingerprint.MissingUserAgentIsUnknown | backend/app.py:110-112 | A missing user agent, an empty one and the literal "Unknown" give the same fingerprint. |
| Fingerprint.HashInputSplits | backend/app.py:111 | For an address without '-', the hashed string splits at its first '-' back into the address and the effective user agent. |
| Fingerprint.SameFingerprintSameVisitor | backend/app.py:108-112 | With an injective digest and addresses without '-', equal fingerprints mean the same address and the same effective user agent. |
| Fingerprint.HashInputAmbiguousWithDashes | backend/app.py:111 | An address that contains '-' can collide: ("a-b", "c") and ("a", "b-c") hash the same string. |
| Validation.NormalizeUrl | backend/app.py:199-200 | The result always starts with http:// or https://. A URL that already does is unchanged, and any other URL gets https:// in front. |
| Validation.NormalizeUrlIdempotent | backend/app.py:199-200 | Normalising an already normalised URL changes nothing. |
| Validation.CheckLongUrl | backend/app.py:196-200 | A missing or empty long_url is rejected, and anything else is accepted in normalised form. |
| Validation.CheckSignup | backend/app.py:148-151 | Signup passes exactly when both fields are present with a username of at least 3 and a password of at least 6 characters. "Required" is reported exactly when a field is missing or empty. |
| StatsSpec.UserClicks | backend/app.py:308 | The user's clicks: the log's clicks whose user_id is the user, in log order. They are never more than the log holds. `StatsProperties.UserClicksMembers` states membership both ways. |
| StatsSpec.ActiveLinkCount | backend/app.py:305-307 | `count_documents` of the user's links with `expires_at` strictly after now. It is never more than the number of links. `StatsProperties.ActiveLinkCountMonotone` and `LinkStore.ShortenAddsLiveLink` state how it changes. |
| StatsSpec.MaxFirst | backend/app.py:331 | `max` with `key=counts.get` over the table's insertion order. The result is one of the table's keys. `StatsProperties.MaxFirstIsFirstMaximum` proves it is a first maximum. |
| StatsSpec.DominantOf | backend/app.py:329-342 | The three-way choice: a place if any click was counted, else no clicks, else no public geo. Its properties are stated by `StatsProperties.DominantKinds` and `StatsProperties.DominantIsMostFrequentFirstSeen`. |
| StatsSpec.RenderKey | backend/app.py:332-338 | The rendering of the chosen key, including the "Unknown Location" fallback. `StatsProperties.PlaceRendering` proves that the fallback is never reached for a counted key. |
| StatsSpec.StatsOf | backend/app.py:305-342 | The summary the endpoint returns, as a function of the links, the log, the user and the time. `Stats.ComputeStats` is proved equal to it, and `StatsProperties.ReturningWithinUnique` bounds its counts. |
| StatsSpec.KeyOf | backend/app.py:317-326 | A click is counted under (city, country) exactly when both are real places. It is counted under (None, country) exactly when the country is real and the city is missing or empty. A counted key carries the click's own fields. |
| StatsSpec.KnownCityUnknownCountryNotCounted | backend/app.py:320-326 | A real city with an unknown or private country is never counted. |
| StatsProperties.ReturningWithinUnique | backend/app.py:327-328 | Returning visitors are a subset of unique visitors, so their count is at most the unique count. |
| StatsProperties.UidsOfMembers | backend/app.py:314-316 | The fingerprints gathered are exactly those that some click carries. |
| StatsProperties.KeysOfMembers | backend/app.py:317-326 | The keys counted are exactly those that some click is counted under. |
| StatsProperties.UserClicksMembers | backend/app.py:308 | The user's clicks are exactly the log's clicks whose user_id is that user. |
| StatsProperties.DistinctAfterClick | backend/app.py:314-315 | One more click adds its fingerprint, if it carries one, to the distinct set and changes nothing else. |
| StatsProperties.ReturningAfterClick | backend/app.py:313-328 | One more click with fingerprint u makes u returning exactly when u had been seen once, and changes nothing else. |
| StatsProperties.VisitorCountsAfterClick | backend/app.py:313-328 | The unique count grows by one exactly for a new fingerprint. The returning count grows by one exactly when the fingerprint had been seen once. |
| StatsProperties.FirstSeenMembers | backend/app.py:322-331 | The table's insertion order holds every counted key exactly once. |
| StatsProperties.FirstSeenOrdered | backend/app.py:322-331 | The insertion order lists keys by their first occurrence. |
| StatsProperties.MaxFirstIsFirstMaximum | backend/app.py:331 | `max` over the table in insertion order returns a key of maximal count, and every key before it has a strictly smaller count. |
| StatsProperties.DominantKinds | backend/app.py:329-342 | The location result is "no clicks" exactly when there are no clicks. It is "no public geo" exactly when there are clicks but none is counted. Otherwise it is a place that some click was counted under. |
| StatsProperties.DominantIsMostFrequentFirstSeen | backend/app.py:330-331 | The chosen place is at least as frequent as any counted key. Among equally frequent keys, it is the one seen first. |
| StatsProperties.CountedKeyIsReal | backend/app.py:320-326 | Every counted key has a real country, and a real city when it has one. |
| StatsProperties.PlaceRendering | backend/app.py:332-338 | A chosen place renders as "City, Country", or as "Country" when the city is absent. The "Unknown Location" fallback is never reached. |
| StatsProperties.ActiveLinkCountMonotone | backend/app.py:305-307 | The active-link count never grows as time passes. |
| StatsProperties.ThreeClicksTwoVisitors | backend/app.py:313-328 | Three clicks from two fingerprints, one of them repeated, give 2 unique visitors and 1 returning visitor. |
| StatsProperties.ParisWins | backend/app.py:329-334 | A concrete log in which Paris, France is counted most often renders as "Paris, France". |
| StatsProperties.NullCityCountsUnderCountry | backend/app.py:318-326 | A click whose provider answer had `"city": null` and a real country is counted under (None, country), because the stored None city is not truthy. |
| StatsProperties.MissingCityNotCounted | backend/app.py:95-96 | A click whose provider answer had no `city` member at all is stored with the city "Unknown" and is not counted under any location. |
| StatsProperties.AllUnknownIsNoPublicGeo | backend/app.py:339-342 | Clicks with only Unknown geolocation give "Geo data for public IPs not available.". |
| Stats.UidTableCounts | backend/app.py:314-316 | The per-fingerprint table's keys are the distinct fingerprints, and each value is that fingerprint's number of clicks. |
| Stats.KeyTableCounts | backend/app.py:317-326 | The per-location table's keys are the counted keys, and each value is that key's number of clicks. |
| Stats.KeyTableOrder | backend/app.py:322-325 | A key is in the location table exactly when it is in the table's insertion order. |
| Stats.ReturningFromTable | backend/app.py:328 | The fingerprints with a count above one are exactly the returning fingerprints. |
| Stats.Tally | backend/app.py:309-326 | The loop builds the distinct set, both count tables, the keys' insertion order and the public-geo flag, each equal to its specification. |
| Stats.CountReturning | backend/app.py:328 | Counts the table entries whose value is above one. |
| Stats.MostFrequent | backend/app.py:331 | The scan returns the first key of maximal count in insertion order. |
| Stats.LocationText | backend/app.py:329-342 | The location text is the rendering of the specified three-way result. |
| Stats.ComputeStats | backend/app.py:305-342 | The summary equals `StatsSpec.StatsOf`: active links, unique visitors, returning visitors and the location text. |
| LinkStore.Resolve | backend/app.py:363-366 | The lookup returns the first link whose code matches and whose expiry is strictly after now. When it returns nothing, no link is live under that code. |
| LinkStore.RecordedClick | backend/app.py:370-382 | The inserted click document: the link's id and owner, the fingerprint, the resolved geolocation, the time, the address and the user agent (defaulting to "Unknown"). `LinkStore.RecordedFingerprint` and `LinkStore.RedirectHit` state each of its fields. |
| LinkStore.RedirectStep | backend/app.py:363-390 | The redirect as a step on both collections. A raising lookup or insert changes nothing. A raising counter update keeps the click. Its properties are stated by the redirect lemmas below. |
| LinkStore.Ttl | backend/app.py:204-250 | The lifetime of a new link: 86400 s (24 hours) for an anonymous link and 1209600 s (2 weeks) for a signed-in owner. |
| LinkStore.NewLink | backend/app.py:204-211 | The inserted link document is live at the time of creation, has a zero counter, and carries the given owner and URL. |
| LinkStore.ShortenStep | backend/app.py:196-254 | Both shorten endpoints as a step on the collections, in the source's order of checks: the URL, the owner lookup, the unknown owner, the code lookups, the insert, the QR code. Its properties are stated by the shorten lemmas below. |
| LinkStore.FirstUnused | backend/app.py:201-203 | The retry loop settles on a drawn code that no link, live or expired, uses. |
| LinkStore.RecordedFingerprint | backend/app.py:370-372 | The recorded fingerprint equals the fingerprint of the visit's header, whether the header was sent or defaulted. |
| LinkStore.RedirectFindsLiveLinks | backend/app.py:363-369 | The redirect answers not-found exactly when the lookup succeeds and no link is live under the code. A raising lookup answers with the server error and changes nothing. |
| LinkStore.ExpiredOrMissingIsNotFound | backend/app.py:363-369 | A missing code, or one whose link has expired, changes neither collection. It answers not-found, or the server error if the lookup raises. |
| LinkStore.RedirectHit | backend/app.py:363-387 | A fault-free redirect to a live link returns its long URL. It appends exactly one click. The click carries the link's id, its owner, the visitor's fingerprint, the resolver's geolocation for the visitor's address, the time, the address, and the User-Agent header or "Unknown". Only that link's counter changes, by +1. |
| LinkStore.IncrementFailureLeavesCounterBehind | backend/app.py:374-390 | When the counter update raises after the click insert, the click stays recorded and the counter lags by one. |
| LinkStore.RedirectPreservesConsistent | backend/app.py:363-390 | Every redirect outcome keeps the store consistent: codes stay unique, every click names an existing link and carries its owner, and no counter exceeds its recorded clicks. |
| LinkStore.RedirectKeepsCounted | backend/app.py:374-386 | A fault-free redirect keeps every counter equal to its link's recorded clicks. |
| LinkStore.RedirectKeepsActiveLinkCount | backend/app.py:383-386 | No redirect changes any user's active-link count at any instant. |
| LinkStore.RedirectEffectOnOwnerStats | backend/app.py:374-382 | A recorded click joins exactly the owner's clicks. The owner's unique and returning counts change as `VisitorCountsAfterClick` states. |
| LinkStore.RedirectLeavesOtherUsersClicks | backend/app.py:374-382 | Users who do not own the resolved link keep exactly the clicks they had. |
| LinkStore.RepeatedRedirectsCount | backend/app.py:374-386 | n fault-free redirects through a live code raise its counter by exactly n and record n clicks. |
| LinkStore.SameVisitorTwiceReturns | backend/app.py:370-386 | The same visitor following a link twice gives its owner 1 unique visitor and 1 returning visitor. |
| LinkStore.ShortenAddsLiveLink | backend/app.py:196-250 | A fault-free shorten appends exactly one link: the normalised URL under an unused drawn code, owned by the requester, created now, with a zero counter and a lifetime of 24 hours (anonymous) or 2 weeks (signed in). The redirect then resolves the code to it, and the owner's active count grows by one. |
| LinkStore.ShortenChangesAtMostOneLink | backend/app.py:196-254 | Shorten never touches the click log. It answers "long URL required" exactly when the URL is missing or empty. It answers "invalid user" exactly when the owner lookup succeeds and finds no account. It answers the server error exactly when a later step raises or the QR code fails. One link is appended exactly when the insert is reached and succeeds, even when the QR code then fails. Otherwise the links are unchanged. |
| LinkStore.ShortenPreserves | backend/app.py:196-254 | Every shorten outcome keeps the store consistent and keeps counters equal to recorded clicks. |
| LinkStore.Store.Redirect | backend/app.py:360-390 | Performs the redirect in place: the new collections and the outcome are those of `RedirectStep`, and the store stays consistent. |
| LinkStore.Store.Shorten | backend/app.py:191-264 | Performs either shorten endpoint in place, including the retry loop over drawn codes. The new collections and the outcome are those of `ShortenStep`, and the store stays consistent. |

## Left out

- Flask routing, CORS, ProxyFix, JSON bodies and HTTP status plumbing: request parsing is replaced by optional parameters, and responses by outcome datatypes.
- JWT tokens, bcrypt and login: the signed-in owner is a parameter, and whether the account exists is a boolean. The username-uniqueness lookup of signup and the history endpoint are database queries outside the core.
- The HTTP call to the geolocation provider: a function parameter returning a request failure, an unreadable body, or an answer whose members are each missing, `null` or a string.
- Geolocation.FromProvider: a `city` or `country` member that is a JSON number, boolean, array or object is not modelled. The source would store such a value as it is.
- SHA-256: a function parameter. Only injectivity is assumed, and only in `Fingerprint.SameFingerprintSameVisitor`, as a requirement.
- `generate_short_code`: randomness. The drawn codes are a parameter, and the retry loop is modelled over them. `LinkStore.Store.Shorten` requires that some draw is unused whenever the loop is reached, because the loop never ends otherwise.
- QR-code generation: image library code. Only its failure is modelled, as a fault that yields an error after the link was inserted.
- Concurrency: the atomicity of `$inc` under concurrent redirects, and a code drawn concurrently by two requests, are not modelled. Each endpoint is one sequential step.
- `datetime.utcnow()`: time is an integer parameter in seconds. Each endpoint reads the clock once.
- Logging (`print`) has no effect on state and is left out.
- Stats queries that raise: the stats endpoint answers 500 when `count_documents` or `find` raises (lines 305-308 of `backend/app.py`, caught at 355-357). `Stats.ComputeStats` assumes both queries succeed. The token and account checks before them (lines 299-304), which answer 401 or 404, are left out with the other authentication code.
- StatsSpec.UserClicks: the cursor of `clicks_collection.find({"user_id": ...})` has no sort, and MongoDB promises no order without one. The model assumes the cursor returns the clicks in the log's insertion (natural) order. Because that order becomes the frequency table's insertion order, the tie-break of `max` ("first seen wins") in `StatsProperties.DominantIsMostFrequentFirstSeen`, `StatsSpec.MaxFirst` and `Stats.MostFrequent` is relative to this assumed order. The same clicks returned in another order can render a different location when two locations tie.
- `all_user_clicks.count()` is modelled as the number of the user's clicks, as the cursor's `count()` in pymongo 3 returns. Under pymongo 4, where that method no longer exists, the stats endpoint would fail on this branch.
- Stored documents are read back without missing or null fields, except `client_uid` and `geo_location` and its two fields, whose presence the aggregator checks.

=== FILE: address_ranges.dfy ===
/**
 * What the string-prefix classifier means on well-formed IPv4 addresses:
 * for a dotted quad written in canonical decimal, it accepts exactly the three
 * private blocks of section 3 of RFC 1918, plus the loopback addresses
 * 127.0.0.d whose last octet is written with a leading 1.
 */
module AddressRanges {
  import opened Text
  import opened Geolocation

  function DigitChar(d: nat): (c: char)
    requires d < 10
    ensures IsDigit(c)
  {
    ('0' as int + d) as char
  }

  /** Canonical decimal rendering of a natural number (no leading zeros). */
  function Decimal(n: nat): (s: string)
    ensures |s| >= 1 && AllDigits(s)
    ensures (n < 10) == (|s| == 1)
    decreases n
  {
    if n < 10 then [DigitChar(n)] else Decimal(n / 10) + [DigitChar(n % 10)]
  }

  /** The textual form `a.b.c.d` of an IPv4 address. */
  function DottedQuad(a: nat, b: nat, c: nat, d: nat): string
  {
    Decimal(a) + "." + Decimal(b) + "." + Decimal(c) + "." + Decimal(d)
  }

  predicate IsOctet(n: nat)
  {
    n < 256
  }

  /** Membership in 10.0.0.0/8, 172.16.0.0/12 or 192.168.0.0/16. */
  predicate InRfc1918Block(a: nat, b: nat)
  {
    a == 10 || (a == 172 && 16 <= b <= 31) || (a == 192 && b == 168)
  }

  lemma {:induction false} DecimalInjective(m: nat, n: nat)
    requires Decimal(m) == Decimal(n)
    ensures m == n
    decreases m
  {
    if m >= 10 && n >= 10 {
      var sm, sn := Decimal(m), Decimal(n);
      assert sm[|sm| - 1] == DigitChar(m % 10);
      assert sn[|sn| - 1] == DigitChar(n % 10);
      assert m % 10 == n % 10;
      assert sm[..|sm| - 1] == Decimal(m / 10);
      assert sn[..|sn| - 1] == Decimal(n / 10);
      DecimalInjective(m / 10, n / 10);
    }
  }

  /**
   * A digit field followed by a dot starts with a digit pattern followed by a
   * dot exactly when the two fields are equal and the rests agree.
   */
  lemma FieldPrefix(x: string, r: string, p: string, q: string)
    requires AllDigits(x) && AllDigits(p)
    ensures StartsWith(x + "." + r, p + "." + q) <==> x == p && StartsWith(r, q)
  {
    var s, t := x + "." + r, p + "." + q;
    if |x| < |p| {
      assert s[|x|] != t[|x|];
      assert |t| <= |s| ==> s[..|t|][|x|] == s[|x|];
    } else if |x| > |p| {
      assert s[|p|] != t[|p|];
      assert |t| <= |s| ==> s[..|t|][|p|] == s[|p|];
    } else {
      if StartsWith(s, t) {
        assert x == s[..|x|] == t[..|p|] == p;
        assert r[..|q|] == s[|x| + 1..|t|] == t[|p| + 1..] == q;
      }
      if x == p && StartsWith(r, q) {
        assert s[..|t|] == p + "." + r[..|q|];
      }
    }
  }

  /** The decimal forms of the constants the prefixes spell out. */
  lemma DecimalSamples()
    ensures Decimal(0) == "0" && Decimal(10) == "10" && Decimal(127) == "127"
    ensures Decimal(172) == "172" && Decimal(192) == "192" && Decimal(168) == "168"
  {
    assert Decimal(1) == "1" && Decimal(12) == "12" && Decimal(17) == "17";
    assert Decimal(19) == "19" && Decimal(16) == "16";
  }

  /** Entry k - 15 of the prefix table is `172.k.` for every k of 16..31. */
  lemma Block172Entry(k: nat)
    requires 16 <= k <= 31
    ensures PRIVATE_PREFIXES[k - 15] == "172" + "." + (Decimal(k) + "." + "")
  {
    Block172Text(k);
    DecimalTwoDigits(k);
    PrefixRegroup(Decimal(k));
  }

  lemma Block172Text(k: nat)
    requires 16 <= k <= 31
    ensures PRIVATE_PREFIXES[k - 15] == "172." + [DigitChar(k / 10), DigitChar(k % 10)] + "."
  {
  }

  lemma DecimalTwoDigits(n: nat)
    requires 10 <= n < 100
    ensures Decimal(n) == [DigitChar(n / 10), DigitChar(n % 10)]
  {
    assert Decimal(n / 10) == [DigitChar(n / 10)];
  }

  lemma PrefixRegroup(x: string)
    ensures "172." + x + "." == "172" + "." + (x + "." + "")
  {
  }

  /** The last octet of a loopback quad matches the `127.0.0.1` prefix exactly when it is 1, 10..19 or 100..199. */
  lemma LeadingOne(d: nat)
    requires IsOctet(d)
    ensures StartsWith(Decimal(d), "1") <==> d == 1 || 10 <= d <= 19 || 100 <= d <= 199
  {
    var s := Decimal(d);
    assert StartsWith(s, "1") <==> s[0] == '1' by {
      assert s[..1] == [s[0]];
    }
    if d < 10 {
      assert s[0] == DigitChar(d);
    } else if d < 100 {
      assert Decimal(d / 10) == [DigitChar(d / 10)];
      assert s[0] == DigitChar(d / 10);
    } else {
      assert Decimal(d / 10 / 10) == [DigitChar(d / 10 / 10)];
      assert Decimal(d / 10)[0] == DigitChar(d / 10 / 10);
      assert s[0] == DigitChar(d / 10 / 10);
    }
  }

  /** What entry i of the prefix table demands of a dotted quad. */
  predicate EntryMatches(i: nat, a: nat, b: nat, c: nat, d: nat)
  {
    if i == 0 then a == 10
    else if i <= 16 then a == 172 && b == i + 15
    else if i == 17 then a == 192 && b == 168
    else a == 127 && b == 0 && c == 0 && StartsWith(Decimal(d), "1")
  }

  lemma EntryMeaning(i: nat, a: nat, b: nat, c: nat, d: nat)
    requires i < |PRIVATE_PREFIXES|
    ensures StartsWith(DottedQuad(a, b, c, d), PRIVATE_PREFIXES[i]) <==> EntryMatches(i, a, b, c, d)
  {
    if i == 0 {
      assert PRIVATE_PREFIXES[0] == "10" + "." + "";
      TenEntryMeaning(a, b, c, d);
    } else if i <= 16 {
      Block172Entry(i + 15);
      Block172EntryMeaning(i + 15, a, b, c, d);
    } else if i == 17 {
      assert PRIVATE_PREFIXES[17] == "192" + "." + ("168" + "." + "");
      Block192EntryMeaning(a, b, c, d);
    } else {
      assert PRIVATE_PREFIXES[18] == "127" + "." + ("0" + "." + ("0" + "." + "1"));
      LoopbackEntryMeaning(a, b, c, d);
    }
  }

  /** A dotted quad split after its first and second fields. */
  lemma DottedQuadFields(a: nat, b: nat, c: nat, d: nat)
    ensures DottedQuad(a, b, c, d) == Decimal(a) + "." + (Decimal(b) + "." + (Decimal(c) + "." + Decimal(d)))
  {
    DotsRegroup(Decimal(a), Decimal(b), Decimal(c), Decimal(d));
  }

  lemma DotsRegroup(w: string, x: string, y: string, z: string)
    ensures w + "." + x + "." + y + "." + z == w + "." + (x + "." + (y + "." + z))
  {
  }

  lemma TenEntryMeaning(a: nat, b: nat, c: nat, d: nat)
    ensures StartsWith(DottedQuad(a, b, c, d), "10" + "." + "") <==> a == 10
  {
    DottedQuadFields(a, b, c, d);
    DecimalSamples();
    FieldPrefix(Decimal(a), Decimal(b) + "." + (Decimal(c) + "." + Decimal(d)), "10", "");
    if a != 10 { NotDecimalOf(a, 10); }
  }

  lemma Block172EntryMeaning(k: nat, a: nat, b: nat, c: nat, d: nat)
    ensures StartsWith(DottedQuad(a, b, c, d), "172" + "." + (Decimal(k) + "." + "")) <==> a == 172 && b == k
  {
    DottedQuadFields(a, b, c, d);
    DecimalSamples();
    var afterB := Decimal(c) + "." + Decimal(d);
    FieldPrefix(Decimal(a), Decimal(b) + "." + afterB, "172", Decimal(k) + "." + "");
    FieldPrefix(Decimal(b), afterB, Decimal(k), "");
    if a != 172 { NotDecimalOf(a, 172); }
    if b != k { NotDecimalOf(b, k); }
  }

  lemma Block192EntryMeaning(a: nat, b: nat, c: nat, d: nat)
    ensures StartsWith(DottedQuad(a, b, c, d), "192" + "." + ("168" + "." + "")) <==> a == 192 && b == 168
  {
    DottedQuadFields(a, b, c, d);
    DecimalSamples();
    var afterB := Decimal(c) + "." + Decimal(d);
    FieldPrefix(Decimal(a), Decimal(b) + "." + afterB, "192", "168" + "." + "");
    FieldPrefix(Decimal(b), afterB, "168", "");
    if a != 192 { NotDecimalOf(a, 192); }
    if b != 168 { NotDecimalOf(b, 168); }
  }

  lemma LoopbackEntryMeaning(a: nat, b: nat, c: nat, d: nat)
    ensures StartsWith(DottedQuad(a, b, c, d), "127" + "." + ("0" + "." + ("0" + "." + "1"))) <==>
              a == 127 && b == 0 && c == 0 && StartsWith(Decimal(d), "1")
  {
    DottedQuadFields(a, b, c, d);
    DecimalSamples();
    var afterB := Decimal(c) + "." + Decimal(d);
    FieldPrefix(Decimal(a), Decimal(b) + "." + afterB, "127", "0" + "." + ("0" + "." + "1"));
    FieldPrefix(Decimal(b), afterB, "0", "0" + "." + "1");
    FieldPrefix(Decimal(c), Decimal(d), "0", "1");
    if a != 127 { NotDecimalOf(a, 127); }
    if b != 0 { NotDecimalOf(b, 0); }
    if c != 0 { NotDecimalOf(c, 0); }
  }

  lemma NotDecimalOf(m: nat, n: nat)
    requires m != n
    ensures Decimal(m) != Decimal(n)
  {
    if Decimal(m) == Decimal(n) {
      DecimalInjective(m, n);
    }
  }

  /**
   * On a well-formed dotted quad the classifier accepts exactly the RFC 1918
   * blocks and the loopback quads 127.0.0.d with d in 1, 10..19 or 100..199.
   */
  lemma PrivateQuadIffReserved(a: nat, b: nat, c: nat, d: nat)
    requires IsOctet(a) && IsOctet(b) && IsOctet(c) && IsOctet(d)
    ensures IsPrivateAddress(DottedQuad(a, b, c, d)) <==>
              InRfc1918Block(a, b)
              || (a == 127 && b == 0 && c == 0 && (d == 1 || 10 <= d <= 19 || 100 <= d <= 199))
  {
    var ip := DottedQuad(a, b, c, d);
    assert ip != LOCALHOST by {
      assert IsDigit(ip[0]);
    }
    LeadingOne(d);
    if IsPrivateAddress(ip) {
      var i :| 0 <= i < |PRIVATE_PREFIXES| && StartsWith(ip, PRIVATE_PREFIXES[i]);
      EntryMeaning(i, a, b, c, d);
    }
    var i := if a == 10 then 0 else if a == 172 && 16 <= b <= 31 then b - 15
             else if a == 192 then 17 else 18;
    EntryMeaning(i, a, b, c, d);
  }
}

=== FILE: documents.dfy ===
/**
 * The documents the backend stores: short links (the `urls` collection) and
 * click events (the `clicks` collection), and the geolocation pair a click carries.
 */
module Documents {
  import opened Wrappers

  /** A user's ObjectId, as its hex string. */
  type UserId = string

  /** Sentinel city/country written for private and loopback addresses. */
  const LOCAL_PRIVATE: string := "Local/Private"
  /** Sentinel city/country written when the provider gave no answer. */
  const UNKNOWN: string := "Unknown"

  /**
   * The `{city, country}` pair the geolocation resolver returns, stored as a
   * click's `geo_location`. A field is None when the provider reported it as
   * JSON null (Python's None) or when the stored document lacks it: the stats
   * query reads both with `.get`, which gives None either way.
   */
  datatype Geo = Geo(city: Option<string>, country: Option<string>)

  /**
   * One document of the `clicks` collection. `urlId` is the `_id` of the link
   * (its position in the link table); `clientUid` and `geo` are optional
   * because the aggregator checks for their presence.
   */
  datatype ClickDoc = ClickDoc(
    urlId: nat,
    userId: Option<UserId>,
    clientUid: Option<string>,
    geo: Option<Geo>,
    timestamp: int,
    ipAddress: string,
    userAgent: string)

  /** One document of the `urls` collection; `owner` is None for anonymous links. */
  datatype Link = Link(
    owner: Option<UserId>,
    longUrl: string,
    shortCode: string,
    createdAt: int,
    expiresAt: int,
    clickCount: nat)
}

=== FILE: fingerprint.dfy ===
/**
 * The client fingerprint: a SHA-256 digest of `"<address>-<user agent>"`.
 * The hash is passed in as a deterministic function; its internals are not
 * modelled.
 */
module Fingerprint {
  import opened Wrappers
  import opened Documents

  /** The user agent that is hashed: a missing or empty one becomes "Unknown". */
  function EffectiveUserAgent(userAgent: Option<string>): (ua: string)
    ensures ua != ""
    ensures userAgent.Some? && userAgent.value != "" ==> ua == userAgent.value
    ensures userAgent.None? || userAgent.value == "" ==> ua == UNKNOWN
  {
    if userAgent.Some? && userAgent.value != "" then userAgent.value else UNKNOWN
  }

  /** The string that is hashed. */
  function HashInput(ip: string, userAgent: Option<string>): string
  {
    ip + "-" + EffectiveUserAgent(userAgent)
  }

  /** The fingerprint: `sha256` applied to exactly the hash input. */
  function ClientUid(sha256: string -> string, ip: string, userAgent: Option<string>): string
  {
    sha256(HashInput(ip, userAgent))
  }

  /** A missing user agent, an empty one and the literal "Unknown" give the same fingerprint. */
  lemma MissingUserAgentIsUnknown(sha256: string -> string, ip: string)
    ensures ClientUid(sha256, ip, None) == ClientUid(sha256, ip, Some(""))
    ensures ClientUid(sha256, ip, None) == ClientUid(sha256, ip, Some(UNKNOWN))
  {
  }

  /** Splits a string at its first '-': the address part and the user-agent part. */
  function SplitAtFirstDash(s: string): (parts: (string, string))
    ensures '-' in s ==> s == parts.0 + "-" + parts.1 && '-' !in parts.0
    ensures '-' !in s ==> parts == (s, "")
  {
    if s == [] then ("", "")
    else if s[0] == '-' then ("", s[1..])
    else
      var (head, tail) := SplitAtFirstDash(s[1..]);
      assert '-' in s ==> '-' in s[1..] by {
        if '-' in s {
          var k :| 0 <= k < |s| && s[k] == '-';
          assert s[1..][k - 1] == '-';
        }
      }
      assert [s[0]] + s[1..] == s;
      ([s[0]] + head, tail)
  }

  /**
   * Round trip: for an address without '-' (every IPv4 and IPv6 address), the
   * hash input splits back into the address and the effective user agent.
   */
  lemma {:induction false} HashInputSplits(ip: string, userAgent: Option<string>)
    requires '-' !in ip
    ensures SplitAtFirstDash(HashInput(ip, userAgent)) == (ip, EffectiveUserAgent(userAgent))
    decreases |ip|
  {
    var ua := EffectiveUserAgent(userAgent);
    if ip != [] {
      assert HashInput(ip, userAgent)[1..] == HashInput(ip[1..], userAgent);
      HashInputSplits(ip[1..], userAgent);
      assert [ip[0]] + ip[1..] == ip;
    } else {
      assert HashInput(ip, userAgent) == "-" + ua;
    }
  }

  /**
   * With a collision-free hash, equal fingerprints of dash-free addresses mean
   * the same address and the same effective user agent: the fingerprint is the
   * only thing that recognises a returning visitor.
   */
  lemma SameFingerprintSameVisitor(sha256: string -> string, ip1: string, ua1: Option<string>, ip2: string, ua2: Option<string>)
    requires forall x, y :: sha256(x) == sha256(y) ==> x == y
    requires '-' !in ip1 && '-' !in ip2
    requires ClientUid(sha256, ip1, ua1) == ClientUid(sha256, ip2, ua2)
    ensures ip1 == ip2 && EffectiveUserAgent(ua1) == EffectiveUserAgent(ua2)
  {
    HashInputSplits(ip1, ua1);
    HashInputSplits(ip2, ua2);
  }

  /** Without the dash-free condition the hash input is ambiguous. */
  lemma HashInputAmbiguousWithDashes()
    ensures HashInput("a-b", Some("c")) == HashInput("a", Some("b-c"))
  {
  }
}

=== FILE: geolocation.dfy ===
/**
 * The geolocation resolver: a string-prefix classifier for private and
 * loopback addresses, and the mapping of a provider answer to a
 * `{city, country}` pair that never fails.
 */
module Geolocation {
  import opened Wrappers
  import opened Text
  import opened Documents

  /**
   * The prefixes checked with `startswith`: the three private blocks of
   * section 3 of RFC 1918 (172.16.0.0/12 spelled out second octet by second
   * octet), and the loopback address, which is also only a prefix.
   */
  const PRIVATE_PREFIXES: seq<string> := [
    "10.", "172.16.", "172.17.", "172.18.", "172.19.",
    "172.20.", "172.21.", "172.22.", "172.23.", "172.24.",
    "172.25.", "172.26.", "172.27.", "172.28.", "172.29.",
    "172.30.", "172.31.", "192.168.", "127.0.0.1"]

  const LOCALHOST: string := "localhost"

  /** The address starts with one of the private prefixes, or is the host name `localhost`. */
  predicate IsPrivateAddress(ip: string)
  {
    (exists i :: 0 <= i < |PRIVATE_PREFIXES| && StartsWith(ip, PRIVATE_PREFIXES[i]))
    || ip == LOCALHOST
  }

  /** One member of the provider's JSON object: missing, `null`, or a string. */
  datatype Field = Absent | Null | Str(value: string)

  /**
   * What the geolocation provider can give back for one address: a transport
   * failure or an HTTP error status (both raised by the HTTP client), a body that
   * is not a JSON object (any other exception), or a JSON object with its
   * `status`, `city` and `country` members. A `status` that is missing or not
   * a string is None.
   */
  datatype ProviderResult =
    | RequestFailed
    | NotAnObject
    | Answer(status: Option<string>, city: Field, country: Field)

  const SUCCESS: string := "success"

  const LOCAL_PRIVATE_PAIR: Geo := Geo(Some(LOCAL_PRIVATE), Some(LOCAL_PRIVATE))
  const UNKNOWN_PAIR: Geo := Geo(Some(UNKNOWN), Some(UNKNOWN))

  /**
   * `data.get(key, default)`: the default only when the member is missing; a
   * `null` member gives None.
   */
  function GetWithDefault(f: Field, default: string): (r: Option<string>)
    ensures r == Some(default) <==> f.Absent? || f == Str(default)
    ensures r.None? <==> f.Null?
    ensures f.Str? ==> r == Some(f.value)
  {
    match f
    case Absent => Some(default)
    case Null => None
    case Str(s) => Some(s)
  }

  predicate IsSuccess(p: ProviderResult)
  {
    p.Answer? && p.status == Some(SUCCESS)
  }

  /** Maps one provider result to a pair; every failure collapses to the Unknown pair. */
  function FromProvider(p: ProviderResult): (g: Geo)
    ensures IsSuccess(p) ==> g == Geo(GetWithDefault(p.city, UNKNOWN), GetWithDefault(p.country, UNKNOWN))
    ensures !IsSuccess(p) ==> g == UNKNOWN_PAIR
  {
    match p
    case Answer(status, city, country) =>
      if status == Some(SUCCESS) then Geo(GetWithDefault(city, UNKNOWN), GetWithDefault(country, UNKNOWN))
      else UNKNOWN_PAIR
    case RequestFailed => UNKNOWN_PAIR
    case NotAnObject => UNKNOWN_PAIR
  }

  /**
   * Resolves an address to a pair. `lookup` stands for the HTTP call to the
   * provider; for a private address it is not consulted.
   */
  function GetGeolocation(ip: string, lookup: string -> ProviderResult): (g: Geo)
    ensures IsPrivateAddress(ip) ==> g == LOCAL_PRIVATE_PAIR
    ensures !IsPrivateAddress(ip) && IsSuccess(lookup(ip)) ==>
              g == Geo(GetWithDefault(lookup(ip).city, UNKNOWN), GetWithDefault(lookup(ip).country, UNKNOWN))
    ensures !IsPrivateAddress(ip) && !IsSuccess(lookup(ip)) ==> g == UNKNOWN_PAIR
  {
    if IsPrivateAddress(ip) then LOCAL_PRIVATE_PAIR else FromProvider(lookup(ip))
  }

  /** For a private address the answer does not depend on the provider at all: no lookup is made. */
  lemma PrivateAddressSkipsLookup(ip: string, lookup1: string -> ProviderResult, lookup2: string -> ProviderResult)
    requires IsPrivateAddress(ip)
    ensures GetGeolocation(ip, lookup1) == GetGeolocation(ip, lookup2) == LOCAL_PRIVATE_PAIR
  {
  }

  /**
   * The resolver returns one of three kinds of pair: the Local/Private pair
   * (exactly for private addresses, unless a provider itself reports that
   * text), the Unknown pair, or the provider's own fields.
   */
  lemma GeolocationKinds(ip: string, lookup: string -> ProviderResult)
    ensures var g := GetGeolocation(ip, lookup);
            || (IsPrivateAddress(ip) && g == LOCAL_PRIVATE_PAIR)
            || (!IsPrivateAddress(ip) && g == UNKNOWN_PAIR && !IsSuccess(lookup(ip)))
            || (!IsPrivateAddress(ip) && IsSuccess(lookup(ip))
                && g.city == GetWithDefault(lookup(ip).city, UNKNOWN)
                && g.country == GetWithDefault(lookup(ip).country, UNKNOWN))
  {
  }

  /** A public address whose provider answer never says "Local/Private" cannot get the Local/Private sentinel. */
  lemma LocalPrivateOnlyForPrivateAddresses(ip: string, lookup: string -> ProviderResult)
    requires !IsPrivateAddress(ip)
    requires lookup(ip).Answer? ==> lookup(ip).city != Str(LOCAL_PRIVATE) && lookup(ip).country != Str(LOCAL_PRIVATE)
    ensures GetGeolocation(ip, lookup).city != Some(LOCAL_PRIVATE)
    ensures GetGeolocation(ip, lookup).country != Some(LOCAL_PRIVATE)
  {
  }

  /** Addresses from the three private blocks, the loopback address and `localhost` are private. */
  lemma SamplePrivateAddresses()
    ensures IsPrivateAddress("10.0.0.5")
    ensures IsPrivateAddress("172.20.3.4")
    ensures IsPrivateAddress("192.168.1.1")
    ensures IsPrivateAddress("127.0.0.1")
    ensures IsPrivateAddress("localhost")
  {
    StartsWithConcat("10.", "0.0.5");
    assert "10.0.0.5" == "10." + "0.0.5";
    assert StartsWith("10.0.0.5", PRIVATE_PREFIXES[0]);
    assert "172.20.3.4" == "172.20." + "3.4";
    StartsWithConcat("172.20.", "3.4");
    assert StartsWith("172.20.3.4", PRIVATE_PREFIXES[5]);
    assert "192.168.1.1" == "192.168." + "1.1";
    StartsWithConcat("192.168.", "1.1");
    assert StartsWith("192.168.1.1", PRIVATE_PREFIXES[17]);
    assert StartsWith("127.0.0.1", PRIVATE_PREFIXES[18]);
  }

  /** No address in 172.32.0.0/16 starts with a private prefix. */
  lemma Block172Dot32IsPublic(rest: string)
    ensures !IsPrivateAddress("172.32." + rest)
  {
    var ip := "172.32." + rest;
    assert ip[1] == '7' && ip[4] == '3' && ip[5] == '2';
    forall i | 0 <= i < |PRIVATE_PREFIXES|
      ensures !StartsWith(ip, PRIVATE_PREFIXES[i])
    {
      var p := PRIVATE_PREFIXES[i];
      assert p[1] != '7' || p[4] != '3' || p[5] != '2';
    }
    assert ip != LOCALHOST;
  }

  /** A loopback address other than 127.0.0.1 whose fourth octet does not start with 1 is looked up. */
  lemma OtherLoopbackIsPublic()
    ensures !IsPrivateAddress("127.0.0.2")
  {
    var ip := "127.0.0.2";
    forall i | 0 <= i < |PRIVATE_PREFIXES|
      ensures !StartsWith(ip, PRIVATE_PREFIXES[i])
    {
      var p := PRIVATE_PREFIXES[i];
      assert p[1] != '2' || p[8] != '2';
    }
  }

  /** Because the loopback entry is a prefix, 127.0.0.12 is classified private as well. */
  lemma LoopbackIsAPrefix()
    ensures IsPrivateAddress("127.0.0.12")
  {
    assert "127.0.0.12" == "127.0.0.1" + "2";
    StartsWithConcat("127.0.0.1", "2");
    assert StartsWith("127.0.0.12", PRIVATE_PREFIXES[18]);
  }
}

=== FILE: link_store.dfy ===
/**
 * The link table and the click log as an in-memory store, with the two
 * endpoints that write to them: the redirect (`GET /<short_code>`), which
 * looks up a live link, records one click and bumps the link's counter, and
 * the shorten endpoints, which insert a new link under a fresh code.
 *
 * Each endpoint is a pure step function on the two collections, and the
 * `Store` class performs the same writes in place.
 */
module LinkStore {
  import opened Wrappers
  import opened Text
  import opened Documents
  import opened Geolocation
  import opened Fingerprint
  import opened Validation
  import opened StatsSpec
  import opened StatsProperties

  /** `timedelta(hours=24)`, the lifetime of an anonymous link, in seconds. */
  const ANONYMOUS_TTL: int := 86400
  /** `timedelta(weeks=2)`, the lifetime of a signed-in user's link, in seconds. */
  const USER_TTL: int := 1209600

  /** What the redirect reads from the request: the remote address and the User-Agent header, if sent. */
  datatype Visit = Visit(ip: string, userAgent: Option<string>)

  /** The outside services a redirect consults: the digest and the geolocation provider. */
  datatype Services = Services(sha256: string -> string, lookup: string -> ProviderResult)

  /**
   * Which of the redirect's database calls raise: the lookup of the link, the
   * click insert, then the counter update.
   */
  datatype RedirectFaults = RedirectFaults(lookupFails: bool, insertFails: bool, incrementFails: bool)

  /**
   * Which of a shorten request's later steps raise or fail: the owner lookup
   * (signed-in endpoint only), a lookup of a drawn code, the link insert, then
   * the QR code.
   */
  datatype ShortenFaults = ShortenFaults(ownerLookupFails: bool, codeLookupFails: bool, insertFails: bool, qrFails: bool)

  /** A redirect in which every database call succeeds. */
  const REDIRECT_OK: RedirectFaults := RedirectFaults(false, false, false)
  /** A shorten request in which every later step succeeds. */
  const SHORTEN_OK: ShortenFaults := ShortenFaults(false, false, false, false)

  datatype RedirectOutcome =
    | NotFound                   // 404 "Short URL not found or expired"
    | Redirected(longUrl: string) // 302 to the long URL
    | RedirectFailed             // 500 "Failed to resolve URL"

  datatype ShortenOutcome =
    | Shortened(shortCode: string) // 201
    | LongUrlMissing              // 400 "Long URL is required"
    | InvalidUser                 // 401 "Invalid user"
    | ShortenFailed               // 500, from a lookup, the insert or the QR code

  /** An endpoint's response together with the collections after it. */
  datatype Step<O> = Step(outcome: O, links: seq<Link>, clicks: seq<ClickDoc>)

  /** The redirect's query: this code, and `expires_at` strictly after now. */
  predicate IsLive(l: Link, code: string, now: int)
  {
    l.shortCode == code && l.expiresAt > now
  }

  /** `find_one` for a live link with this code: the first one in the table. */
  function Resolve(links: seq<Link>, code: string, now: int): (r: Option<nat>)
    ensures r.Some? ==> r.value < |links| && IsLive(links[r.value], code, now)
    ensures r.Some? ==> forall j :: 0 <= j < r.value ==> !IsLive(links[j], code, now)
    ensures r.None? ==> forall j :: 0 <= j < |links| ==> !IsLive(links[j], code, now)
  {
    if links == [] then None
    else
      var init := links[..|links| - 1];
      assert forall j :: 0 <= j < |init| ==> init[j] == links[j];
      match Resolve(init, code, now)
      case Some(i) => Some(i)
      case None => if IsLive(links[|links| - 1], code, now) then Some(|links| - 1) else None
  }

  /** The click document the redirect inserts for the link at `id`. */
  function RecordedClick(id: nat, link: Link, v: Visit, s: Services, now: int): ClickDoc
  {
    var ua := v.userAgent.GetOr(UNKNOWN);
    ClickDoc(id, link.owner, Some(ClientUid(s.sha256, v.ip, Some(ua))),
             Some(GetGeolocation(v.ip, s.lookup)), now, v.ip, ua)
  }

  /** `$inc: {click_count: 1}` on the link at `i`. */
  function Increment(links: seq<Link>, i: nat): seq<Link>
    requires i < |links|
  {
    links[i := links[i].(clickCount := links[i].clickCount + 1)]
  }

  /**
   * The redirect endpoint as a step on the two collections: find the live
   * link, insert the click, bump the counter, answer with the long URL; a
   * raised call answers with the server error and keeps the writes made
   * before it.
   */
  function RedirectStep(links: seq<Link>, clicks: seq<ClickDoc>, code: string, v: Visit, s: Services,
                        f: RedirectFaults, now: int): Step<RedirectOutcome>
  {
    if f.lookupFails then Step(RedirectFailed, links, clicks)
    else
      match Resolve(links, code, now)
      case None => Step(NotFound, links, clicks)
      case Some(i) =>
        if f.insertFails then Step(RedirectFailed, links, clicks)
        else
          var logged := clicks + [RecordedClick(i, links[i], v, s, now)];
          if f.incrementFails then Step(RedirectFailed, links, logged)
          else Step(Redirected(links[i].longUrl), Increment(links, i), logged)
  }

  /** `find_one({"short_code": code})`: some link, live or expired, already has the code. */
  predicate CodeInUse(links: seq<Link>, code: string)
  {
    exists i :: 0 <= i < |links| && links[i].shortCode == code
  }

  /** The generator eventually draws a code that is not in use. */
  predicate HasFreeDraw(links: seq<Link>, draws: seq<string>)
  {
    exists j :: 0 <= j < |draws| && !CodeInUse(links, draws[j])
  }

  /** The code the retry loop settles on: the first draw not in use. */
  function FirstUnused(links: seq<Link>, draws: seq<string>): (code: string)
    requires HasFreeDraw(links, draws)
    ensures !CodeInUse(links, code)
    ensures code in draws
    decreases |draws|
  {
    if !CodeInUse(links, draws[0]) then draws[0]
    else
      var j :| 0 <= j < |draws| && !CodeInUse(links, draws[j]);
      assert draws[1..][j - 1] == draws[j];
      FirstUnused(links, draws[1..])
  }

  /** The lifetime of a new link: a day when anonymous, two weeks for a signed-in owner. */
  function Ttl(owner: Option<UserId>): int
  {
    if owner.None? then ANONYMOUS_TTL else USER_TTL
  }

  /** The document the shorten endpoints insert: live from now on, with no clicks counted. */
  function NewLink(owner: Option<UserId>, longUrl: string, code: string, now: int): (l: Link)
    ensures IsLive(l, code, now) && l.createdAt == now && l.clickCount == 0
    ensures l.owner == owner && l.longUrl == longUrl
  {
    Link(owner, longUrl, code, now, now + Ttl(owner), 0)
  }

  /**
   * Whether the shorten request reaches the retry loop: the long URL is
   * present and, for a signed-in owner, the owner lookup succeeds and finds
   * the account.
   */
  predicate ReachesCodeDraw(owner: Option<UserId>, userExists: bool, longUrl: Option<string>, f: ShortenFaults)
  {
    CheckLongUrl(longUrl).Success? && (owner.None? || (!f.ownerLookupFails && userExists))
  }

  /** Whether the retry loop runs until it finds an unused code: it is reached and none of its lookups raises. */
  predicate NeedsFreeDraw(owner: Option<UserId>, userExists: bool, longUrl: Option<string>, f: ShortenFaults)
  {
    ReachesCodeDraw(owner, userExists, longUrl, f) && !f.codeLookupFails
  }

  /** Whether the request inserts its link. */
  predicate Inserts(owner: Option<UserId>, userExists: bool, longUrl: Option<string>, f: ShortenFaults)
  {
    NeedsFreeDraw(owner, userExists, longUrl, f) && !f.insertFails
  }

  /**
   * Both shorten endpoints as a step: check and normalise the URL, look up the
   * owner, draw codes until one is unused, insert the link, make the QR code.
   * `owner` is None for `/shorten-anonymous`, and `userExists` is whether the
   * owner lookup of `/shorten` finds the account.
   */
  function ShortenStep(links: seq<Link>, clicks: seq<ClickDoc>, owner: Option<UserId>, userExists: bool,
                       longUrl: Option<string>, draws: seq<string>, f: ShortenFaults, now: int): Step<ShortenOutcome>
    requires NeedsFreeDraw(owner, userExists, longUrl, f) ==> HasFreeDraw(links, draws)
  {
    match CheckLongUrl(longUrl)
    case Failure(_) => Step(LongUrlMissing, links, clicks)
    case Success(url) =>
      if owner.Some? && f.ownerLookupFails then Step(ShortenFailed, links, clicks)
      else if owner.Some? && !userExists then Step(InvalidUser, links, clicks)
      else if f.codeLookupFails then Step(ShortenFailed, links, clicks)
      else
        var code := FirstUnused(links, draws);
        if f.insertFails then Step(ShortenFailed, links, clicks)
        else
          var added := links + [NewLink(owner, url, code, now)];
          if f.qrFails then Step(ShortenFailed, added, clicks)
          else Step(Shortened(code), added, clicks)
  }

  // ---- What the store keeps true ----

  /** The unique index on `short_code`. */
  predicate UniqueCodes(links: seq<Link>)
  {
    forall i, j :: 0 <= i < j < |links| ==> links[i].shortCode != links[j].shortCode
  }

  /** A click refers to an existing link and carries that link's owner. */
  predicate RefersTo(links: seq<Link>, c: ClickDoc)
  {
    c.urlId < |links| && c.userId == links[c.urlId].owner
  }

  /** The number of recorded clicks on the link at `id`. */
  function ClicksOn(clicks: seq<ClickDoc>, id: nat): (n: nat)
    ensures n <= |clicks|
  {
    if clicks == [] then 0
    else ClicksOn(clicks[..|clicks| - 1], id) + (if clicks[|clicks| - 1].urlId == id then 1 else 0)
  }

  /**
   * The store's invariant: codes are unique, every click refers to a link and
   * carries its owner, and no counter is ahead of the clicks recorded for it.
   */
  ghost predicate Consistent(links: seq<Link>, clicks: seq<ClickDoc>)
  {
    && UniqueCodes(links)
    && (forall k :: 0 <= k < |clicks| ==> RefersTo(links, clicks[k]))
    && (forall i :: 0 <= i < |links| ==> links[i].clickCount <= ClicksOn(clicks, i))
  }

  /** Every counter equals the clicks recorded for its link (true while no counter update has failed). */
  ghost predicate Counted(links: seq<Link>, clicks: seq<ClickDoc>)
  {
    forall i :: 0 <= i < |links| ==> links[i].clickCount == ClicksOn(clicks, i)
  }

  lemma ClicksOnAppend(clicks: seq<ClickDoc>, c: ClickDoc, id: nat)
    ensures ClicksOn(clicks + [c], id) == ClicksOn(clicks, id) + (if c.urlId == id then 1 else 0)
  {
    assert (clicks + [c])[..|clicks|] == clicks;
  }

  /** A link that no click refers to has no recorded clicks. */
  lemma {:induction false} ClicksOnUnreferenced(clicks: seq<ClickDoc>, id: nat)
    requires forall k :: 0 <= k < |clicks| ==> clicks[k].urlId != id
    ensures ClicksOn(clicks, id) == 0
    decreases |clicks|
  {
    if clicks != [] {
      var init := clicks[..|clicks| - 1];
      assert forall k :: 0 <= k < |init| ==> init[k] == clicks[k];
      ClicksOnUnreferenced(init, id);
    }
  }

  // ---- Redirect ----

  /** The fingerprint recorded with a click is that of the visit's own header, defaulted or not. */
  lemma RecordedFingerprint(id: nat, link: Link, v: Visit, s: Services, now: int)
    ensures RecordedClick(id, link, v, s, now).clientUid == Some(ClientUid(s.sha256, v.ip, v.userAgent))
  {
    MissingUserAgentIsUnknown(s.sha256, v.ip);
  }

  /**
   * The redirect answers not-found exactly when its lookup succeeds and no
   * live link has the code; a raising lookup answers with the server error
   * and changes nothing.
   */
  lemma RedirectFindsLiveLinks(links: seq<Link>, clicks: seq<ClickDoc>, code: string, v: Visit, s: Services,
                               f: RedirectFaults, now: int)
    ensures (RedirectStep(links, clicks, code, v, s, f, now).outcome == NotFound) <==>
            !f.lookupFails && (forall j :: 0 <= j < |links| ==> !IsLive(links[j], code, now))
    ensures f.lookupFails ==> RedirectStep(links, clicks, code, v, s, f, now) == Step(RedirectFailed, links, clicks)
  {
    var r := Resolve(links, code, now);
    if r.Some? {
      assert IsLive(links[r.value], code, now);
    }
  }

  /**
   * A missing or expired code changes neither collection and answers
   * not-found, or the server error when the lookup itself raises.
   */
  lemma ExpiredOrMissingIsNotFound(links: seq<Link>, clicks: seq<ClickDoc>, code: string,
                                   v: Visit, s: Services, f: RedirectFaults, now: int)
    requires UniqueCodes(links)
    requires !CodeInUse(links, code) || exists i :: 0 <= i < |links| && links[i].shortCode == code && links[i].expiresAt <= now
    ensures RedirectStep(links, clicks, code, v, s, f, now) ==
              Step(if f.lookupFails then RedirectFailed else NotFound, links, clicks)
  {
  }

  /**
   * A redirect to the live link at `i` that raises nothing answers with the
   * long URL, appends exactly one click that carries the link's id, its owner,
   * the visit's fingerprint and the time, and raises that link's counter by
   * one; every other link is unchanged.
   */
  lemma RedirectHit(links: seq<Link>, clicks: seq<ClickDoc>, code: string, v: Visit, s: Services, now: int, i: nat)
    requires UniqueCodes(links)
    requires i < |links| && IsLive(links[i], code, now)
    ensures var st := RedirectStep(links, clicks, code, v, s, REDIRECT_OK, now);
      && st.outcome == Redirected(links[i].longUrl)
      && |st.clicks| == |clicks| + 1 && st.clicks[..|clicks|] == clicks
      && st.clicks[|clicks|].urlId == i
      && st.clicks[|clicks|].userId == links[i].owner
      && st.clicks[|clicks|].clientUid == Some(ClientUid(s.sha256, v.ip, v.userAgent))
      && st.clicks[|clicks|].timestamp == now
      && st.clicks[|clicks|].geo == Some(GetGeolocation(v.ip, s.lookup))
      && st.clicks[|clicks|].ipAddress == v.ip
      && st.clicks[|clicks|].userAgent == v.userAgent.GetOr(UNKNOWN)
      && |st.links| == |links|
      && st.links[i].clickCount == links[i].clickCount + 1
      && st.links[i] == links[i].(clickCount := links[i].clickCount + 1)
      && forall j :: 0 <= j < |links| && j != i ==> st.links[j] == links[j]
  {
    var r := Resolve(links, code, now);
    assert r.Some?;
    assert r.value == i;
    RecordedFingerprint(i, links[i], v, s, now);
    var c := RecordedClick(i, links[i], v, s, now);
    assert (clicks + [c])[..|clicks|] == clicks;
  }

  /**
   * When the counter update raises after the click was inserted, the click
   * stays recorded but the counter is not raised: the counter then lags the
   * recorded clicks by one.
   */
  lemma IncrementFailureLeavesCounterBehind(links: seq<Link>, clicks: seq<ClickDoc>, code: string, v: Visit,
                                            s: Services, now: int, i: nat)
    requires Counted(links, clicks)
    requires UniqueCodes(links)
    requires i < |links| && IsLive(links[i], code, now)
    ensures var st := RedirectStep(links, clicks, code, v, s, RedirectFaults(false, false, true), now);
      && st.outcome == RedirectFailed
      && st.links == links
      && ClicksOn(st.clicks, i) == st.links[i].clickCount + 1
  {
    var r := Resolve(links, code, now);
    assert r.value == i;
    ClicksOnAppend(clicks, RecordedClick(i, links[i], v, s, now), i);
  }

  /** Every redirect outcome keeps the store consistent. */
  lemma RedirectPreservesConsistent(links: seq<Link>, clicks: seq<ClickDoc>, code: string, v: Visit, s: Services,
                                    f: RedirectFaults, now: int)
    requires Consistent(links, clicks)
    ensures var st := RedirectStep(links, clicks, code, v, s, f, now); Consistent(st.links, st.clicks)
  {
    var r := Resolve(links, code, now);
    if !f.lookupFails && r.Some? && !f.insertFails {
      var i := r.value;
      var c := RecordedClick(i, links[i], v, s, now);
      var logged := clicks + [c];
      forall id: nat {
        ClicksOnAppend(clicks, c, id);
      }
      var st := RedirectStep(links, clicks, code, v, s, f, now);
      assert forall k :: 0 <= k < |st.clicks| ==> RefersTo(st.links, st.clicks[k]) by {
        forall k | 0 <= k < |st.clicks|
          ensures RefersTo(st.links, st.clicks[k])
        {
          if k < |clicks| {
            assert st.clicks[k] == clicks[k];
            assert RefersTo(links, clicks[k]);
          }
        }
      }
    }
  }

  /** A redirect that raises nothing keeps every counter equal to its link's recorded clicks. */
  lemma RedirectKeepsCounted(links: seq<Link>, clicks: seq<ClickDoc>, code: string, v: Visit, s: Services, now: int)
    requires Counted(links, clicks)
    ensures var st := RedirectStep(links, clicks, code, v, s, REDIRECT_OK, now);
      Counted(st.links, st.clicks)
  {
    var r := Resolve(links, code, now);
    if r.Some? {
      var c := RecordedClick(r.value, links[r.value], v, s, now);
      forall id: nat {
        ClicksOnAppend(clicks, c, id);
      }
    }
  }

  /** Owners and expiry times are all a redirect can leave the active-link count depending on. */
  lemma {:induction false} ActiveLinkCountSameOwnersAndExpiry(a: seq<Link>, b: seq<Link>, user: UserId, now: int)
    requires |a| == |b|
    requires forall j :: 0 <= j < |a| ==> a[j].owner == b[j].owner && a[j].expiresAt == b[j].expiresAt
    ensures ActiveLinkCount(a, user, now) == ActiveLinkCount(b, user, now)
    decreases |a|
  {
    if a != [] {
      ActiveLinkCountSameOwnersAndExpiry(a[..|a| - 1], b[..|b| - 1], user, now);
    }
  }

  /** No redirect changes any user's active-link count, at any instant. */
  lemma RedirectKeepsActiveLinkCount(links: seq<Link>, clicks: seq<ClickDoc>, code: string, v: Visit, s: Services,
                                     f: RedirectFaults, now: int, user: UserId, at: int)
    ensures var st := RedirectStep(links, clicks, code, v, s, f, now);
      ActiveLinkCount(st.links, user, at) == ActiveLinkCount(links, user, at)
  {
    var st := RedirectStep(links, clicks, code, v, s, f, now);
    ActiveLinkCountSameOwnersAndExpiry(st.links, links, user, at);
  }

  /**
   * The effect of a recorded click on the owner's stats: the owner's clicks
   * gain exactly the new click, the distinct-visitor count grows by one for a
   * new fingerprint, and the returning count grows by one when the
   * fingerprint had been seen exactly once.
   */
  lemma RedirectEffectOnOwnerStats(links: seq<Link>, clicks: seq<ClickDoc>, code: string, v: Visit, s: Services,
                                   f: RedirectFaults, now: int, i: nat, owner: UserId)
    requires Resolve(links, code, now) == Some(i) && !f.lookupFails && !f.insertFails
    requires links[i].owner == Some(owner)
    ensures var st := RedirectStep(links, clicks, code, v, s, f, now);
      var before := UserClicks(clicks, owner);
      var u := ClientUid(s.sha256, v.ip, v.userAgent);
      && UserClicks(st.clicks, owner) == before + [st.clicks[|clicks|]]
      && |DistinctUids(UserClicks(st.clicks, owner))| == |DistinctUids(before)| + (if u in DistinctUids(before) then 0 else 1)
      && |ReturningUids(UserClicks(st.clicks, owner))| == |ReturningUids(before)| + (if multiset(UidsOf(before))[u] == 1 then 1 else 0)
  {
    var c := RecordedClick(i, links[i], v, s, now);
    RecordedFingerprint(i, links[i], v, s, now);
    UserClicksAppend(clicks, c, owner);
    VisitorCountsAfterClick(UserClicks(clicks, owner), c, ClientUid(s.sha256, v.ip, v.userAgent));
  }

  /** A redirect leaves the clicks of every user other than the link's owner as they were. */
  lemma RedirectLeavesOtherUsersClicks(links: seq<Link>, clicks: seq<ClickDoc>, code: string, v: Visit, s: Services,
                                       f: RedirectFaults, now: int, user: UserId)
    requires forall i :: 0 <= i < |links| && IsLive(links[i], code, now) ==> links[i].owner != Some(user)
    ensures UserClicks(RedirectStep(links, clicks, code, v, s, f, now).clicks, user) == UserClicks(clicks, user)
  {
    var r := Resolve(links, code, now);
    if !f.lookupFails && r.Some? && !f.insertFails {
      UserClicksAppend(clicks, RecordedClick(r.value, links[r.value], v, s, now), user);
    }
  }

  /**
   * Successive fault-free redirects through the same code, one per visit; the
   * outcome is that of the last one. No visits leave both collections as they
   * were; the `NotFound` outcome of that empty run is only a placeholder, since
   * no redirect took place.
   */
  function RedirectTimes(links: seq<Link>, clicks: seq<ClickDoc>, code: string, visits: seq<Visit>, s: Services,
                         now: int): Step<RedirectOutcome>
    decreases |visits|
  {
    if visits == [] then Step(NotFound, links, clicks)
    else
      var st := RedirectStep(links, clicks, code, visits[0], s, REDIRECT_OK, now);
      if |visits| == 1 then st else RedirectTimes(st.links, st.clicks, code, visits[1..], s, now)
  }

  /** Redirecting `n` times through a live code raises its counter by exactly `n` and records `n` clicks. */
  lemma {:induction false} RepeatedRedirectsCount(links: seq<Link>, clicks: seq<ClickDoc>, code: string,
                                                  visits: seq<Visit>, s: Services, now: int, i: nat)
    requires UniqueCodes(links)
    requires i < |links| && IsLive(links[i], code, now)
    ensures var st := RedirectTimes(links, clicks, code, visits, s, now);
      && |st.links| == |links|
      && st.links[i].clickCount == links[i].clickCount + |visits|
      && |st.clicks| == |clicks| + |visits|
      && UniqueCodes(st.links) && IsLive(st.links[i], code, now)
    decreases |visits|
  {
    if visits != [] {
      RedirectHit(links, clicks, code, visits[0], s, now, i);
      var st := RedirectStep(links, clicks, code, visits[0], s, REDIRECT_OK, now);
      assert forall j :: 0 <= j < |links| ==> st.links[j].shortCode == links[j].shortCode;
      assert UniqueCodes(st.links);
      RepeatedRedirectsCount(st.links, st.clicks, code, visits[1..], s, now, i);
    }
  }

  /**
   * The same visitor following an owner's link twice, on an owner with no
   * clicks yet, shows in the owner's stats as one unique visitor who returned.
   */
  lemma SameVisitorTwiceReturns(links: seq<Link>, clicks: seq<ClickDoc>, code: string, v: Visit, s: Services,
                                now: int, i: nat, owner: UserId)
    requires UniqueCodes(links)
    requires i < |links| && IsLive(links[i], code, now) && links[i].owner == Some(owner)
    requires UserClicks(clicks, owner) == []
    ensures var st := RedirectTimes(links, clicks, code, [v, v], s, now);
      var stats := StatsOf(st.links, st.clicks, owner, now);
      stats.uniqueClicks == 1 && stats.returningVisitors == 1
  {
    var st1 := RedirectStep(links, clicks, code, v, s, REDIRECT_OK, now);
    FirstVisitOfOwner(links, clicks, code, v, s, now, i, owner);
    OneVisitorOnce(UserClicks(st1.clicks, owner), ClientUid(s.sha256, v.ip, v.userAgent));
    LiveLinkResolves(st1.links, code, now, i);
    TwoRedirects(links, clicks, code, v, v, s, now);
    RedirectEffectOnOwnerStats(st1.links, st1.clicks, code, v, s, REDIRECT_OK, now, i, owner);
  }

  /** Two redirects in a row are the second step applied to the state the first one leaves. */
  lemma TwoRedirects(links: seq<Link>, clicks: seq<ClickDoc>, code: string, v: Visit, w: Visit, s: Services, now: int)
    ensures var st1 := RedirectStep(links, clicks, code, v, s, REDIRECT_OK, now);
      RedirectTimes(links, clicks, code, [v, w], s, now) == RedirectStep(st1.links, st1.clicks, code, w, s, REDIRECT_OK, now)
  {
    assert [v, w][1..] == [w];
  }

  /** Clicks carrying one fingerprint once: one distinct visitor, nobody returning yet. */
  lemma OneVisitorOnce(cs: seq<ClickDoc>, u: string)
    requires UidsOf(cs) == [u]
    ensures DistinctUids(cs) == {u} && multiset(UidsOf(cs))[u] == 1 && ReturningUids(cs) == {}
  {
  }

  /** Under unique codes, the lookup finds the one live link with the code. */
  lemma LiveLinkResolves(links: seq<Link>, code: string, now: int, i: nat)
    requires UniqueCodes(links)
    requires i < |links| && IsLive(links[i], code, now)
    ensures Resolve(links, code, now) == Some(i)
  {
  }

  /** The first visit leaves the owner with that one visitor's click, and the link still live under its code. */
  lemma FirstVisitOfOwner(links: seq<Link>, clicks: seq<ClickDoc>, code: string, v: Visit, s: Services,
                          now: int, i: nat, owner: UserId)
    requires UniqueCodes(links)
    requires i < |links| && IsLive(links[i], code, now) && links[i].owner == Some(owner)
    requires UserClicks(clicks, owner) == []
    ensures var st := RedirectStep(links, clicks, code, v, s, REDIRECT_OK, now);
      && UniqueCodes(st.links) && i < |st.links| && IsLive(st.links[i], code, now)
      && st.links[i].owner == Some(owner)
      && UidsOf(UserClicks(st.clicks, owner)) == [ClientUid(s.sha256, v.ip, v.userAgent)]
  {
    RedirectHit(links, clicks, code, v, s, now, i);
    var st1 := RedirectStep(links, clicks, code, v, s, REDIRECT_OK, now);
    var c1 := st1.clicks[|clicks|];
    assert st1.clicks == clicks + [c1];
    UserClicksAppend(clicks, c1, owner);
    assert UserClicks(st1.clicks, owner) == [] + [c1];
    UidsOfAppend([], c1);
    assert forall j :: 0 <= j < |links| ==> st1.links[j].shortCode == links[j].shortCode;
  }

  // ---- Shorten ----

  /**
   * A shorten request that gets past its checks and raises nothing appends
   * exactly one link: the normalised URL under a code not used before, owned
   * by the requester, created now, with a zero counter and the owner's
   * lifetime; the new link is then live, the redirect resolves its code to
   * it, and the owner's active-link count grows by one.
   */
  lemma ShortenAddsLiveLink(links: seq<Link>, clicks: seq<ClickDoc>, owner: Option<UserId>, userExists: bool,
                            longUrl: Option<string>, draws: seq<string>, now: int)
    requires ReachesCodeDraw(owner, userExists, longUrl, SHORTEN_OK) && HasFreeDraw(links, draws)
    requires UniqueCodes(links)
    ensures var st := ShortenStep(links, clicks, owner, userExists, longUrl, draws, SHORTEN_OK, now);
      var code := FirstUnused(links, draws);
      && st.outcome == Shortened(code)
      && !CodeInUse(links, code) && code in draws
      && st.clicks == clicks
      && st.links == links + [Link(owner, NormalizeUrl(longUrl.value), code, now, now + Ttl(owner), 0)]
      && HasScheme(st.links[|links|].longUrl)
      && UniqueCodes(st.links)
      && Resolve(st.links, code, now) == Some(|links|)
      && (owner.Some? ==> ActiveLinkCount(st.links, owner.value, now) == ActiveLinkCount(links, owner.value, now) + 1)
  {
    var code := FirstUnused(links, draws);
    var st := ShortenStep(links, clicks, owner, userExists, longUrl, draws, SHORTEN_OK, now);
    var added := links + [NewLink(owner, NormalizeUrl(longUrl.value), code, now)];
    assert st.links == added;
    assert added[..|links|] == links;
    assert forall j :: 0 <= j < |links| ==> added[j] == links[j] && links[j].shortCode != code;
    var r := Resolve(added, code, now);
    assert r == Some(|links|);
  }

  /**
   * Every shorten request leaves the click log alone; it is rejected for a
   * missing URL or an unknown owner, fails exactly when one of its later steps
   * raises, and adds one link exactly when the insert is reached and succeeds
   * (even when the QR code then fails).
   */
  lemma ShortenChangesAtMostOneLink(links: seq<Link>, clicks: seq<ClickDoc>, owner: Option<UserId>, userExists: bool,
                                    longUrl: Option<string>, draws: seq<string>, f: ShortenFaults, now: int)
    requires NeedsFreeDraw(owner, userExists, longUrl, f) ==> HasFreeDraw(links, draws)
    ensures var st := ShortenStep(links, clicks, owner, userExists, longUrl, draws, f, now);
      && st.clicks == clicks
      && (st.outcome == LongUrlMissing <==> !Truthy(longUrl))
      && (st.outcome == InvalidUser <==> Truthy(longUrl) && owner.Some? && !f.ownerLookupFails && !userExists)
      && (st.outcome == ShortenFailed <==>
            Truthy(longUrl) && ((owner.Some? && f.ownerLookupFails)
                                || (ReachesCodeDraw(owner, userExists, longUrl, f)
                                    && (f.codeLookupFails || f.insertFails || f.qrFails))))
      && (!Inserts(owner, userExists, longUrl, f) ==> st.links == links)
      && (Inserts(owner, userExists, longUrl, f) ==> |st.links| == |links| + 1 && st.links[..|links|] == links)
  {
    var st := ShortenStep(links, clicks, owner, userExists, longUrl, draws, f, now);
    if Inserts(owner, userExists, longUrl, f) {
      var added := links + [NewLink(owner, CheckLongUrl(longUrl).value, FirstUnused(links, draws), now)];
      assert added[..|links|] == links;
    }
  }

  /** Every shorten outcome keeps the store consistent and keeps counters equal to recorded clicks. */
  lemma ShortenPreserves(links: seq<Link>, clicks: seq<ClickDoc>, owner: Option<UserId>, userExists: bool,
                         longUrl: Option<string>, draws: seq<string>, f: ShortenFaults, now: int)
    requires NeedsFreeDraw(owner, userExists, longUrl, f) ==> HasFreeDraw(links, draws)
    requires Consistent(links, clicks)
    ensures var st := ShortenStep(links, clicks, owner, userExists, longUrl, draws, f, now);
      Consistent(st.links, st.clicks)
    ensures var st := ShortenStep(links, clicks, owner, userExists, longUrl, draws, f, now);
      Counted(links, clicks) ==> Counted(st.links, st.clicks)
  {
    var st := ShortenStep(links, clicks, owner, userExists, longUrl, draws, f, now);
    if Inserts(owner, userExists, longUrl, f) {
      var code := FirstUnused(links, draws);
      var l := NewLink(owner, CheckLongUrl(longUrl).value, code, now);
      assert st.links == links + [l] && st.clicks == clicks;
      AppendUnusedLinkPreserves(links, clicks, l);
    } else {
      assert st.links == links && st.clicks == clicks;
    }
  }

  /** Appending a link with a fresh code and a zero counter keeps both invariants. */
  lemma AppendUnusedLinkPreserves(links: seq<Link>, clicks: seq<ClickDoc>, l: Link)
    requires Consistent(links, clicks)
    requires forall j :: 0 <= j < |links| ==> links[j].shortCode != l.shortCode
    requires l.clickCount == 0
    ensures Consistent(links + [l], clicks)
    ensures Counted(links, clicks) ==> Counted(links + [l], clicks)
  {
    var added := links + [l];
    assert forall j :: 0 <= j < |links| ==> added[j] == links[j];
    assert UniqueCodes(added);
    ClicksOnUnreferenced(clicks, |links|);
  }

  /** The two collections, updated in place by the endpoints. */
  class Store {
    var links: seq<Link>
    var clicks: seq<ClickDoc>

    ghost predicate Valid()
      reads this
    {
      Consistent(links, clicks)
    }

    /** An empty database. */
    constructor ()
      ensures links == [] && clicks == []
      ensures Valid()
    {
      links := [];
      clicks := [];
    }

    /** `GET /<short_code>`: look up the live link, insert the click, bump the counter. */
    method Redirect(code: string, v: Visit, s: Services, f: RedirectFaults, now: int) returns (r: RedirectOutcome)
      requires Valid()
      modifies this
      ensures Valid()
      ensures Step(r, links, clicks) == RedirectStep(old(links), old(clicks), code, v, s, f, now)
    {
      RedirectPreservesConsistent(links, clicks, code, v, s, f, now);
      if f.lookupFails {
        return RedirectFailed;
      }
      var found := Resolve(links, code, now);
      if found.None? {
        return NotFound;
      }
      var i := found.value;
      var link := links[i];
      if f.insertFails {
        return RedirectFailed;
      }
      clicks := clicks + [RecordedClick(i, link, v, s, now)];
      if f.incrementFails {
        return RedirectFailed;
      }
      links := links[i := link.(clickCount := link.clickCount + 1)];
      return Redirected(link.longUrl);
    }

    /**
     * `POST /shorten-anonymous` (owner None) and `POST /shorten`: check the
     * URL, normalise it, check the owner, draw codes until one is unused,
     * insert the link.
     */
    method Shorten(owner: Option<UserId>, userExists: bool, longUrl: Option<string>, draws: seq<string>,
                   f: ShortenFaults, now: int) returns (r: ShortenOutcome)
      requires Valid()
      requires NeedsFreeDraw(owner, userExists, longUrl, f) ==> HasFreeDraw(links, draws)
      modifies this
      ensures Valid()
      ensures Step(r, links, clicks) == ShortenStep(old(links), old(clicks), owner, userExists, longUrl, draws, f, now)
    {
      ShortenPreserves(links, clicks, owner, userExists, longUrl, draws, f, now);
      var checked := CheckLongUrl(longUrl);
      if checked.Failure? {
        return LongUrlMissing;
      }
      var url := checked.value;
      if owner.Some? && f.ownerLookupFails {
        return ShortenFailed;
      }
      if owner.Some? && !userExists {
        return InvalidUser;
      }
      if f.codeLookupFails {
        return ShortenFailed;
      }
      var j := 0;
      while CodeInUse(links, draws[j])
        invariant 0 <= j < |draws|
        invariant HasFreeDraw(links, draws[j..])
        invariant FirstUnused(links, draws[j..]) == FirstUnused(links, draws)
        decreases |draws| - j
      {
        assert draws[j..][1..] == draws[j + 1..];
        j := j + 1;
      }
      var code := draws[j];
      if f.insertFails {
        return ShortenFailed;
      }
      links := links + [NewLink(owner, url, code, now)];
      if f.qrFails {
        return ShortenFailed;
      }
      return Shortened(code);
    }
  }
}

=== FILE: stats.dfy ===
/**
 * The stats endpoint's aggregation: one pass over the user's click events that
 * fills a set of fingerprints, a count per fingerprint and a count per location
 * key, then a count of the fingerprints seen more than once and a `max` over
 * the location table.
 */
module Stats {
  import opened Documents
  import opened StatsSpec
  import opened StatsProperties

  /** The fingerprints among `us` whose count is above one. */
  function CountsAboveOne(counts: map<string, nat>, us: set<string>): set<string>
  {
    set u | u in us && u in counts && counts[u] > 1
  }

  /** `counts[x] += 1` on a `defaultdict(int)`. */
  function Bump<K>(counts: map<K, nat>, x: K): map<K, nat>
  {
    counts[x := (if x in counts then counts[x] else 0) + 1]
  }

  /** The per-fingerprint table after the clicks `cs` (`client_uid_counts`). */
  function UidTable(cs: seq<ClickDoc>): map<string, nat>
  {
    if cs == [] then map[]
    else
      var prev := UidTable(cs[..|cs| - 1]);
      var c := cs[|cs| - 1];
      if c.clientUid.Some? then Bump(prev, c.clientUid.value) else prev
  }

  /** The per-location table after the clicks `cs` (`city_country_counts`). */
  function KeyTable(cs: seq<ClickDoc>): map<LocationKey, nat>
  {
    if cs == [] then map[]
    else
      var prev := KeyTable(cs[..|cs| - 1]);
      var c := cs[|cs| - 1];
      if KeyOf(c.geo).Some? then Bump(prev, KeyOf(c.geo).value) else prev
  }

  lemma UidTableAppend(cs: seq<ClickDoc>, c: ClickDoc)
    ensures UidTable(cs + [c]) == if c.clientUid.Some? then Bump(UidTable(cs), c.clientUid.value) else UidTable(cs)
  {
    assert (cs + [c])[..|cs|] == cs;
  }

  lemma KeyTableAppend(cs: seq<ClickDoc>, c: ClickDoc)
    ensures KeyTable(cs + [c]) == if KeyOf(c.geo).Some? then Bump(KeyTable(cs), KeyOf(c.geo).value) else KeyTable(cs)
  {
    assert (cs + [c])[..|cs|] == cs;
  }

  /** The fingerprint table counts, for each distinct fingerprint, the clicks that carry it. */
  lemma {:induction false} UidTableCounts(cs: seq<ClickDoc>)
    ensures UidTable(cs).Keys == DistinctUids(cs)
    ensures forall u :: u in UidTable(cs) ==> UidTable(cs)[u] == multiset(UidsOf(cs))[u]
    decreases |cs|
  {
    if cs != [] {
      var init, c := cs[..|cs| - 1], cs[|cs| - 1];
      assert cs == init + [c];
      UidTableCounts(init);
      UidTableAppend(init, c);
      UidsOfAppend(init, c);
      DistinctAfterClick(init, c);
    }
  }

  /** The location table counts, for each counted key, the clicks counted under it. */
  lemma {:induction false} KeyTableCounts(cs: seq<ClickDoc>)
    ensures forall k :: k in KeyTable(cs) <==> k in KeysOf(cs)
    ensures forall k :: k in KeyTable(cs) ==> KeyTable(cs)[k] == Freq(KeysOf(cs), k)
    decreases |cs|
  {
    if cs != [] {
      var init, c := cs[..|cs| - 1], cs[|cs| - 1];
      assert cs == init + [c];
      KeyTableCounts(init);
      KeyTableAppend(init, c);
      KeysOfAppend(init, c);
    }
  }

  /** A key is in the location table exactly when it is in the table's insertion order. */
  lemma KeyTableOrder(cs: seq<ClickDoc>, k: LocationKey)
    ensures k in KeyTable(cs) <==> k in FirstSeen(KeysOf(cs))
  {
    KeyTableCounts(cs);
    FirstSeenMembers(KeysOf(cs));
  }

  /**
   * The pass over the clicks: the set of fingerprints, the
   * count of each, the count of each location key with the keys' insertion
   * order, and whether any click was counted.
   */
  method Tally(clicks: seq<ClickDoc>)
    returns (uniqueUids: set<string>, uidCounts: map<string, nat>,
             keyCounts: map<LocationKey, nat>, keyOrder: seq<LocationKey>, hasPublicGeo: bool)
    ensures uniqueUids == DistinctUids(clicks)
    ensures uidCounts == UidTable(clicks)
    ensures keyCounts == KeyTable(clicks)
    ensures keyOrder == FirstSeen(KeysOf(clicks))
    ensures hasPublicGeo == (|KeysOf(clicks)| > 0)
  {
    uniqueUids, uidCounts, keyCounts, keyOrder, hasPublicGeo := {}, map[], map[], [], false;
    var i := 0;
    while i < |clicks|
      invariant 0 <= i <= |clicks|
      invariant uniqueUids == DistinctUids(clicks[..i])
      invariant uidCounts == UidTable(clicks[..i])
      invariant keyCounts == KeyTable(clicks[..i])
      invariant keyOrder == FirstSeen(KeysOf(clicks[..i]))
      invariant hasPublicGeo == (|KeysOf(clicks[..i])| > 0)
    {
      var click := clicks[i];
      assert clicks[..i + 1] == clicks[..i] + [click];
      UidTableAppend(clicks[..i], click);
      KeyTableAppend(clicks[..i], click);
      KeysOfAppend(clicks[..i], click);
      DistinctAfterClick(clicks[..i], click);
      if click.clientUid.Some? {
        var u := click.clientUid.value;
        uniqueUids := uniqueUids + {u};
        uidCounts := Bump(uidCounts, u);
      }
      var key := KeyOf(click.geo);
      if key.Some? {
        var k := key.value;
        KeyTableOrder(clicks[..i], k);
        FirstSeenAppend(KeysOf(clicks[..i]), k);
        assert KeysOf(clicks[..i + 1]) == KeysOf(clicks[..i]) + [k];
        if k !in keyCounts {
          keyOrder := keyOrder + [k];
        }
        assert keyOrder == FirstSeen(KeysOf(clicks[..i + 1]));
        keyCounts := Bump(keyCounts, k);
        hasPublicGeo := true;
      } else {
        assert KeysOf(clicks[..i + 1]) == KeysOf(clicks[..i]);
      }
      i := i + 1;
    }
    assert clicks[..i] == clicks;
  }

  /** Adding one more table key to the scanned set adds it to the count exactly when its value is above one. */
  lemma CountsAboveOneAdd(counts: map<string, nat>, done: set<string>, u: string)
    requires u in counts && u !in done
    ensures |CountsAboveOne(counts, done + {u})| == |CountsAboveOne(counts, done)| + (if counts[u] > 1 then 1 else 0)
  {
    var before := CountsAboveOne(counts, done);
    var added := if counts[u] > 1 then {u} else {};
    assert CountsAboveOne(counts, done + {u}) == before + added;
    assert before !! added;
  }

  /** `sum(1 for count in client_uid_counts.values() if count > 1)`. */
  method CountReturning(uidCounts: map<string, nat>) returns (n: nat)
    ensures n == |CountsAboveOne(uidCounts, uidCounts.Keys)|
  {
    n := 0;
    var pending := uidCounts.Keys;
    ghost var done: set<string> := {};
    while pending != {}
      invariant done + pending == uidCounts.Keys && done !! pending
      invariant n == |CountsAboveOne(uidCounts, done)|
      decreases |pending|
    {
      var u :| u in pending;
      CountsAboveOneAdd(uidCounts, done, u);
      if uidCounts[u] > 1 {
        n := n + 1;
      }
      pending := pending - {u};
      done := done + {u};
    }
  }

  /** `max(city_country_counts, key=city_country_counts.get)` over the table in insertion order. */
  method MostFrequent(keyOrder: seq<LocationKey>, keyCounts: map<LocationKey, nat>, ghost ks: seq<LocationKey>)
    returns (best: LocationKey)
    requires |keyOrder| > 0
    requires forall k :: k in keyOrder ==> k in keyCounts && keyCounts[k] == Freq(ks, k)
    ensures best == MaxFirst(keyOrder, ks)
  {
    best := keyOrder[0];
    var j := 1;
    while j < |keyOrder|
      invariant 1 <= j <= |keyOrder|
      invariant best in keyOrder
      invariant best == MaxFirst(keyOrder[..j], ks)
    {
      var k := keyOrder[j];
      assert keyOrder[..j + 1][..j] == keyOrder[..j];
      if keyCounts[k] > keyCounts[best] {
        best := k;
      }
      j := j + 1;
    }
    assert keyOrder[..j] == keyOrder;
  }

  /** The returning count read off the fingerprint table is the number of returning fingerprints. */
  lemma ReturningFromTable(cs: seq<ClickDoc>)
    ensures CountsAboveOne(UidTable(cs), UidTable(cs).Keys) == ReturningUids(cs)
  {
    UidTableCounts(cs);
  }

  /** The location text of the summary, chosen from the tables the pass built. */
  method LocationText(clicks: seq<ClickDoc>, keyCounts: map<LocationKey, nat>, keyOrder: seq<LocationKey>,
                      hasPublicGeo: bool)
    returns (location: string)
    requires keyCounts == KeyTable(clicks)
    requires keyOrder == FirstSeen(KeysOf(clicks))
    requires hasPublicGeo == (|KeysOf(clicks)| > 0)
    ensures location == RenderDominant(DominantOf(clicks))
  {
    ghost var ks := KeysOf(clicks);
    KeyTableCounts(clicks);
    FirstSeenMembers(ks);
    assert |ks| > 0 ==> ks[0] in keyCounts && ks[0] in keyOrder;
    if hasPublicGeo && keyCounts != map[] {
      var best := MostFrequent(keyOrder, keyCounts, ks);
      location := RenderKey(best);
    } else if |clicks| == 0 {
      location := NO_CLICKS;
    } else {
      location := NO_PUBLIC_GEO;
    }
  }

  /**
   * Computes the summary for `user` at time `now` from the link table and the
   * click log passed in (the two collections the endpoint queries).
   */
  method ComputeStats(links: seq<Link>, log: seq<ClickDoc>, user: UserId, now: int) returns (s: Stats)
    ensures s == StatsOf(links, log, user, now)
  {
    var totalUrlsShortened := ActiveLinkCount(links, user, now);
    var clicks := UserClicks(log, user);
    var uniqueUids, uidCounts, keyCounts, keyOrder, hasPublicGeo := Tally(clicks);
    var returningVisitors := CountReturning(uidCounts);
    ReturningFromTable(clicks);
    var location := LocationText(clicks, keyCounts, keyOrder, hasPublicGeo);
    s := Stats(totalUrlsShortened, |uniqueUids|, returningVisitors, location);
  }
}

=== FILE: stats_properties.dfy ===
/** Properties of the stats summary: visitor counts, the location choice and active links. */
module StatsProperties {
  import opened Wrappers
  import opened Documents
  import opened StatsSpec
  import opened Geolocation

  /** Every returning fingerprint is a distinct fingerprint, so returning visitors never exceed unique ones. */
  lemma ReturningWithinUnique(cs: seq<ClickDoc>)
    ensures ReturningUids(cs) <= DistinctUids(cs)
    ensures |ReturningUids(cs)| <= |DistinctUids(cs)|
  {
    var r, d := ReturningUids(cs), DistinctUids(cs);
    assert d == r + (d - r);
    assert r * (d - r) == {};
  }

  /** The fingerprint list holds exactly the fingerprints that the clicks carry. */
  lemma {:induction false} UidsOfMembers(cs: seq<ClickDoc>)
    ensures forall u :: u in UidsOf(cs) <==> exists c :: c in cs && c.clientUid == Some(u)
    decreases |cs|
  {
    if cs != [] {
      var init, last := cs[..|cs| - 1], cs[|cs| - 1];
      assert cs == init + [last];
      UidsOfMembers(init);
      UidsOfAppend(init, last);
    }
  }

  /** The counted keys are exactly the keys some click is counted under. */
  lemma {:induction false} KeysOfMembers(cs: seq<ClickDoc>)
    ensures forall k :: k in KeysOf(cs) <==> exists c :: c in cs && KeyOf(c.geo) == Some(k)
    decreases |cs|
  {
    if cs != [] {
      var init, last := cs[..|cs| - 1], cs[|cs| - 1];
      assert cs == init + [last];
      KeysOfMembers(init);
      KeysOfAppend(init, last);
    }
  }

  /** The stats query sees exactly the clicks whose owner is the user. */
  lemma {:induction false} UserClicksMembers(log: seq<ClickDoc>, user: UserId)
    ensures forall c :: c in UserClicks(log, user) <==> c in log && c.userId == Some(user)
    decreases |log|
  {
    if log != [] {
      var init, last := log[..|log| - 1], log[|log| - 1];
      assert log == init + [last];
      UserClicksMembers(init, user);
      UserClicksAppend(init, last, user);
    }
  }

  /** Appending a click extends the fingerprint list by that click's fingerprint, if it has one. */
  lemma UidsOfAppend(cs: seq<ClickDoc>, c: ClickDoc)
    ensures UidsOf(cs + [c]) == UidsOf(cs) + (if c.clientUid.Some? then [c.clientUid.value] else [])
  {
    assert (cs + [c])[..|cs|] == cs;
  }

  lemma KeysOfAppend(cs: seq<ClickDoc>, c: ClickDoc)
    ensures KeysOf(cs + [c]) == KeysOf(cs) + (if KeyOf(c.geo).Some? then [KeyOf(c.geo).value] else [])
  {
    assert (cs + [c])[..|cs|] == cs;
  }

  lemma UserClicksAppend(log: seq<ClickDoc>, c: ClickDoc, user: UserId)
    ensures UserClicks(log + [c], user) == UserClicks(log, user) + (if c.userId == Some(user) then [c] else [])
  {
    assert (log + [c])[..|log|] == log;
  }

  /** One more click with fingerprint u adds u to the distinct fingerprints and nothing else. */
  lemma DistinctAfterClick(cs: seq<ClickDoc>, c: ClickDoc)
    ensures DistinctUids(cs + [c]) ==
              DistinctUids(cs) + (if c.clientUid.Some? then {c.clientUid.value} else {})
  {
    UidsOfAppend(cs, c);
  }

  /** One more click with fingerprint u makes u returning exactly when it had been seen once before. */
  lemma ReturningAfterClick(cs: seq<ClickDoc>, c: ClickDoc, u: string)
    requires c.clientUid == Some(u)
    ensures ReturningUids(cs + [c]) ==
              ReturningUids(cs) + (if multiset(UidsOf(cs))[u] == 1 then {u} else {})
  {
    UidsOfAppend(cs, c);
    var before, after := UidsOf(cs), UidsOf(cs + [c]);
    assert multiset(after) == multiset(before) + multiset{u};
    assert u in before <==> multiset(before)[u] >= 1;
    if multiset(before)[u] == 1 {
      assert u !in ReturningUids(cs);
    }
  }

  /**
   * The effect of one click on the visitor counts: unique grows by one exactly
   * for a new fingerprint, returning grows by one exactly for a fingerprint
   * seen once before.
   */
  lemma VisitorCountsAfterClick(cs: seq<ClickDoc>, c: ClickDoc, u: string)
    requires c.clientUid == Some(u)
    ensures |DistinctUids(cs + [c])| == |DistinctUids(cs)| + (if u in DistinctUids(cs) then 0 else 1)
    ensures |ReturningUids(cs + [c])| == |ReturningUids(cs)| + (if multiset(UidsOf(cs))[u] == 1 then 1 else 0)
  {
    DistinctAfterClick(cs, c);
    ReturningAfterClick(cs, c, u);
    var d0, d1 := DistinctUids(cs), DistinctUids(cs + [c]);
    var r0, r1 := ReturningUids(cs), ReturningUids(cs + [c]);
    if u in d0 {
      assert d1 == d0;
    } else {
      assert d1 == d0 + {u};
    }
    if multiset(UidsOf(cs))[u] == 1 {
      assert u !in r0;
      assert r1 == r0 + {u};
    } else {
      assert r1 == r0;
    }
  }

  /** The insertion order lists every counted key, and each only once. */
  lemma {:induction false} FirstSeenMembers(ks: seq<LocationKey>)
    ensures forall k :: k in FirstSeen(ks) <==> k in ks
    ensures forall i, j :: 0 <= i < j < |FirstSeen(ks)| ==> FirstSeen(ks)[i] != FirstSeen(ks)[j]
    decreases |ks|
  {
    if ks != [] {
      var init, last := ks[..|ks| - 1], ks[|ks| - 1];
      assert ks == init + [last];
      FirstSeenMembers(init);
    }
  }

  lemma FirstSeenAppend(ks: seq<LocationKey>, k: LocationKey)
    ensures FirstSeen(ks + [k]) == if k in FirstSeen(ks) then FirstSeen(ks) else FirstSeen(ks) + [k]
  {
    assert (ks + [k])[..|ks|] == ks;
  }

  lemma {:induction false} FirstIndexAppend(ks: seq<LocationKey>, x: LocationKey, y: LocationKey)
    requires y in ks
    ensures FirstIndex(ks + [x], y) == FirstIndex(ks, y)
  {
    var i := FirstIndex(ks, y);
    var j := FirstIndex(ks + [x], y);
    assert (ks + [x])[i] == y;
    assert ks[j] == y;
  }

  lemma FirstIndexOfNew(ks: seq<LocationKey>, x: LocationKey)
    requires x !in ks
    ensures FirstIndex(ks + [x], x) == |ks|
  {
    assert (ks + [x])[|ks|] == x;
  }

  /** The table's insertion order is the order of first occurrence. */
  lemma {:induction false} FirstSeenOrdered(ks: seq<LocationKey>)
    ensures forall k :: k in FirstSeen(ks) <==> k in ks
    ensures forall i, j :: 0 <= i < j < |FirstSeen(ks)| ==>
              FirstIndex(ks, FirstSeen(ks)[i]) < FirstIndex(ks, FirstSeen(ks)[j])
    decreases |ks|
  {
    FirstSeenMembers(ks);
    if ks != [] {
      var init, last := ks[..|ks| - 1], ks[|ks| - 1];
      assert ks == init + [last];
      FirstSeenOrdered(init);
      var prev := FirstSeen(init);
      FirstSeenAppend(init, last);
      assert FirstSeen(ks) == if last in prev then prev else prev + [last];
      OrderedAfterAppend(init, prev, last);
    }
  }

  /** One more key keeps a list of keys ordered by first occurrence, whether or not the key is new. */
  lemma OrderedAfterAppend(init: seq<LocationKey>, prev: seq<LocationKey>, last: LocationKey)
    requires forall k :: k in prev <==> k in init
    requires forall i, j :: 0 <= i < j < |prev| ==> FirstIndex(init, prev[i]) < FirstIndex(init, prev[j])
    ensures var fs := if last in prev then prev else prev + [last];
      forall i, j :: 0 <= i < j < |fs| ==> FirstIndex(init + [last], fs[i]) < FirstIndex(init + [last], fs[j])
  {
    if last in prev {
      OrderedAfterRepeat(init, prev, last);
    } else {
      OrderedAfterNew(init, prev, last);
    }
  }

  lemma OrderedAfterRepeat(init: seq<LocationKey>, prev: seq<LocationKey>, last: LocationKey)
    requires forall k :: k in prev <==> k in init
    requires forall i, j :: 0 <= i < j < |prev| ==> FirstIndex(init, prev[i]) < FirstIndex(init, prev[j])
    ensures forall i, j :: 0 <= i < j < |prev| ==> FirstIndex(init + [last], prev[i]) < FirstIndex(init + [last], prev[j])
  {
    forall i, j | 0 <= i < j < |prev|
      ensures FirstIndex(init + [last], prev[i]) < FirstIndex(init + [last], prev[j])
    {
      FirstIndexAppend(init, last, prev[i]);
      FirstIndexAppend(init, last, prev[j]);
    }
  }

  lemma OrderedAfterNew(init: seq<LocationKey>, prev: seq<LocationKey>, last: LocationKey)
    requires forall k :: k in prev <==> k in init
    requires forall i, j :: 0 <= i < j < |prev| ==> FirstIndex(init, prev[i]) < FirstIndex(init, prev[j])
    requires last !in init
    ensures var fs := prev + [last];
      forall i, j :: 0 <= i < j < |fs| ==> FirstIndex(init + [last], fs[i]) < FirstIndex(init + [last], fs[j])
  {
    var fs := prev + [last];
    FirstIndexOfNew(init, last);
    forall i, j | 0 <= i < j < |fs|
      ensures FirstIndex(init + [last], fs[i]) < FirstIndex(init + [last], fs[j])
    {
      assert fs[i] == prev[i];
      FirstIndexAppend(init, last, prev[i]);
      if j < |prev| {
        assert fs[j] == prev[j];
        FirstIndexAppend(init, last, prev[j]);
      }
    }
  }

  /**
   * Python's `max` over the table: the chosen key has the largest frequency,
   * and every key before it in the scan order has a strictly smaller one.
   */
  lemma {:induction false} MaxFirstIsFirstMaximum(order: seq<LocationKey>, ks: seq<LocationKey>) returns (i: nat)
    requires |order| > 0
    ensures i < |order| && order[i] == MaxFirst(order, ks)
    ensures forall k :: k in order ==> Freq(ks, k) <= Freq(ks, MaxFirst(order, ks))
    ensures forall j :: 0 <= j < i ==> Freq(ks, order[j]) < Freq(ks, MaxFirst(order, ks))
  {
    if |order| == 1 {
      i := 0;
    } else {
      var init, last := order[..|order| - 1], order[|order| - 1];
      assert order == init + [last];
      var i0 := MaxFirstIsFirstMaximum(init, ks);
      var best := MaxFirst(init, ks);
      if Freq(ks, last) > Freq(ks, best) {
        i := |order| - 1;
        assert forall j :: 0 <= j < i ==> order[j] in init;
      } else {
        i := i0;
      }
    }
  }

  /**
   * The three kinds of location result: no clicks at all, clicks but none
   * counted, or a place that some click was counted under.
   */
  lemma DominantKinds(cs: seq<ClickDoc>)
    ensures DominantOf(cs) == NoClicks <==> |cs| == 0
    ensures DominantOf(cs) == NoPublicGeo <==>
              |cs| > 0 && forall c :: c in cs ==> KeyOf(c.geo).None?
    ensures DominantOf(cs).Place? <==> exists c :: c in cs && KeyOf(c.geo).Some?
    ensures DominantOf(cs).Place? ==> DominantOf(cs).key in KeysOf(cs)
  {
    var ks := KeysOf(cs);
    KeysOfMembers(cs);
    FirstSeenMembers(ks);
    if |ks| > 0 {
      assert ks[0] in ks;
      var order := FirstSeen(ks);
      assert ks[0] in order;
      var _ := MaxFirstIsFirstMaximum(order, ks);
    } else {
      assert forall k :: k !in ks;
    }
  }

  /**
   * The chosen place is a most frequent key, and among equally frequent keys
   * it is the one that occurred first.
   */
  lemma DominantIsMostFrequentFirstSeen(cs: seq<ClickDoc>, k: LocationKey)
    requires DominantOf(cs).Place?
    requires k in KeysOf(cs)
    ensures Freq(KeysOf(cs), k) <= Freq(KeysOf(cs), DominantOf(cs).key)
    ensures Freq(KeysOf(cs), k) == Freq(KeysOf(cs), DominantOf(cs).key) ==>
              FirstIndex(KeysOf(cs), DominantOf(cs).key) <= FirstIndex(KeysOf(cs), k)
  {
    var ks := KeysOf(cs);
    var order := FirstSeen(ks);
    var best := MaxFirst(order, ks);
    var i := MaxFirstIsFirstMaximum(order, ks);
    FirstSeenMembers(ks);
    assert k in order;
    var j :| 0 <= j < |order| && order[j] == k;
    FirstSeenOrdered(ks);
    if j < i {
      assert Freq(ks, k) < Freq(ks, best);
    }
  }

  /** A counted key names a real country, and a real city when it has one. */
  lemma CountedKeyIsReal(cs: seq<ClickDoc>, k: LocationKey)
    requires k in KeysOf(cs)
    ensures IsRealPlace(Some(k.country))
    ensures k.city.Some? ==> IsRealPlace(k.city)
  {
    KeysOfMembers(cs);
    var c :| c in cs && KeyOf(c.geo) == Some(k);
  }

  /**
   * A chosen place renders as "City, Country" or "Country": the
   * "Unknown Location" fallback of the rendering is never reached.
   */
  lemma PlaceRendering(cs: seq<ClickDoc>)
    requires DominantOf(cs).Place?
    ensures var k := DominantOf(cs).key;
            && (k.city.Some? ==> RenderDominant(DominantOf(cs)) == k.city.value + ", " + k.country)
            && (k.city.None? ==> RenderDominant(DominantOf(cs)) == k.country)
  {
    DominantKinds(cs);
    CountedKeyIsReal(cs, DominantOf(cs).key);
  }

  /** Links only ever expire: the active count never grows as time passes. */
  lemma {:induction false} ActiveLinkCountMonotone(links: seq<Link>, user: UserId, t1: int, t2: int)
    requires t1 <= t2
    ensures ActiveLinkCount(links, user, t2) <= ActiveLinkCount(links, user, t1)
    decreases |links|
  {
    if links != [] {
      ActiveLinkCountMonotone(links[..|links| - 1], user, t1, t2);
    }
  }

  function SampleClick(uid: string, city: string, country: string): ClickDoc
  {
    ClickDoc(0, Some("u"), Some(uid), Some(Geo(Some(city), Some(country))), 0, "", "")
  }

  /** Three clicks with fingerprints A, A, B: two unique visitors, one returning. */
  lemma ThreeClicksTwoVisitors()
    ensures var cs := [SampleClick("A", UNKNOWN, UNKNOWN), SampleClick("A", UNKNOWN, UNKNOWN),
                       SampleClick("B", UNKNOWN, UNKNOWN)];
            |DistinctUids(cs)| == 2 && |ReturningUids(cs)| == 1
  {
    var cs := [SampleClick("A", UNKNOWN, UNKNOWN), SampleClick("A", UNKNOWN, UNKNOWN),
               SampleClick("B", UNKNOWN, UNKNOWN)];
    UidsOfAppend([], cs[0]);
    assert [] + [cs[0]] == [cs[0]];
    UidsOfAppend([cs[0]], cs[1]);
    assert [cs[0]] + [cs[1]] == cs[..2];
    UidsOfAppend(cs[..2], cs[2]);
    assert cs[..2] + [cs[2]] == cs;
    assert UidsOf(cs) == ["A", "A", "B"];
    assert DistinctUids(cs) == {"A", "B"};
    assert multiset(UidsOf(cs))["A"] == 2;
    assert multiset(UidsOf(cs))["B"] == 1;
    assert ReturningUids(cs) == {"A"};
  }

  /** Two clicks from Paris and one with no data: the place is "Paris, France". */
  lemma ParisWins()
    ensures var cs := [SampleClick("A", "Paris", "France"), SampleClick("B", "Paris", "France"),
                       SampleClick("C", UNKNOWN, UNKNOWN)];
            RenderDominant(DominantOf(cs)) == "Paris, France"
  {
    var cs := [SampleClick("A", "Paris", "France"), SampleClick("B", "Paris", "France"),
               SampleClick("C", UNKNOWN, UNKNOWN)];
    var paris := LocationKey(Some("Paris"), "France");
    KeysOfAppend([], cs[0]);
    assert [] + [cs[0]] == [cs[0]];
    KeysOfAppend([cs[0]], cs[1]);
    assert [cs[0]] + [cs[1]] == cs[..2];
    KeysOfAppend(cs[..2], cs[2]);
    assert cs[..2] + [cs[2]] == cs;
    assert KeysOf(cs) == [paris, paris];
    assert FirstSeen([paris, paris]) == [paris] by {
      assert [paris, paris][..1] == [paris];
      assert [paris][..0] == [];
      assert FirstSeen([paris]) == [paris];
    }
  }

  /** Clicks whose geolocation is all Unknown give the no-public-geo text, not the no-clicks text. */
  lemma AllUnknownIsNoPublicGeo()
    ensures var cs := [SampleClick("A", UNKNOWN, UNKNOWN)];
            RenderDominant(DominantOf(cs)) == NO_PUBLIC_GEO != NO_CLICKS
  {
    var cs := [SampleClick("A", UNKNOWN, UNKNOWN)];
    assert cs[..0] == [];
  }

  /**
   * A provider answer with `"city": null` stores a None city, so the click is
   * counted under (None, country); a missing city is stored as "Unknown" and
   * the click is not counted at all.
   */
  lemma NullCityCountsUnderCountry(ip: string, lookup: string -> ProviderResult, country: string)
    requires !IsPrivateAddress(ip)
    requires lookup(ip) == Answer(Some(SUCCESS), Null, Str(country))
    requires IsRealPlace(Some(country))
    ensures KeyOf(Some(GetGeolocation(ip, lookup))) == Some(LocationKey(None, country))
  {
  }

  lemma MissingCityNotCounted(ip: string, lookup: string -> ProviderResult, country: string)
    requires !IsPrivateAddress(ip)
    requires lookup(ip) == Answer(Some(SUCCESS), Absent, Str(country))
    ensures KeyOf(Some(GetGeolocation(ip, lookup))).None?
  {
  }
}

=== FILE: stats_spec.dfy ===
/**
 * What the stats endpoint computes from a user's links and click events,
 * stated as functions of the stored documents.
 */
module StatsSpec {
  import opened Wrappers
  import opened Text
  import opened Documents

  const NO_CLICKS: string := "No clicks recorded yet."
  const NO_PUBLIC_GEO: string := "Geo data for public IPs not available."
  const UNKNOWN_LOCATION: string := "Unknown Location"

  /** A key of the location frequency table: `(city, country)` or `(None, country)`. */
  datatype LocationKey = LocationKey(city: Option<string>, country: string)

  /** The three kinds of location result. */
  datatype Dominant = NoClicks | NoPublicGeo | Place(key: LocationKey)

  /** The summary the stats endpoint returns. */
  datatype Stats = Stats(
    totalUrlsShortened: nat,
    uniqueClicks: nat,
    returningVisitors: nat,
    geoLocation: string)

  /** A geolocation field that names a real place: present, non-empty and not a sentinel. */
  predicate IsRealPlace(s: Option<string>)
  {
    Truthy(s) && s.value != UNKNOWN && s.value != LOCAL_PRIVATE
  }

  /** The frequency-table key a click's geolocation is counted under, if any. */
  function KeyOf(geo: Option<Geo>): (k: Option<LocationKey>)
    ensures (k.Some? && k.value.city.Some?) <==>
              geo.Some? && IsRealPlace(geo.value.city) && IsRealPlace(geo.value.country)
    ensures (k.Some? && k.value.city.None?) <==>
              geo.Some? && IsRealPlace(geo.value.country) && !Truthy(geo.value.city)
    ensures k.Some? ==> geo.Some? && geo.value.country == Some(k.value.country)
    ensures k.Some? && k.value.city.Some? ==> geo.value.city == k.value.city
  {
    match geo
    case None => None
    case Some(g) =>
      if IsRealPlace(g.city) && IsRealPlace(g.country) then Some(LocationKey(g.city, g.country.value))
      else if IsRealPlace(g.country) && !Truthy(g.city) then Some(LocationKey(None, g.country.value))
      else None
  }

  /** A known city with an unknown or private country is never counted. */
  lemma KnownCityUnknownCountryNotCounted(g: Geo)
    requires IsRealPlace(g.city) && !IsRealPlace(g.country)
    ensures KeyOf(Some(g)).None?
  {
  }

  /** The click events of one user, in log order (the `find({"user_id": ...})` query). */
  function UserClicks(log: seq<ClickDoc>, user: UserId): (cs: seq<ClickDoc>)
    ensures |cs| <= |log|
  {
    if log == [] then []
    else
      var last := log[|log| - 1];
      assert log == log[..|log| - 1] + [last];
      UserClicks(log[..|log| - 1], user) + (if last.userId == Some(user) then [last] else [])
  }

  /** The fingerprints the clicks carry, in order, one entry per click that has one. */
  function UidsOf(cs: seq<ClickDoc>): (us: seq<string>)
    ensures |us| <= |cs|
  {
    if cs == [] then []
    else
      var last := cs[|cs| - 1];
      assert cs == cs[..|cs| - 1] + [last];
      UidsOf(cs[..|cs| - 1]) + (if last.clientUid.Some? then [last.clientUid.value] else [])
  }

  /** The distinct fingerprints. */
  function DistinctUids(cs: seq<ClickDoc>): set<string>
  {
    set u | u in UidsOf(cs)
  }

  /** The fingerprints that occur in more than one click. */
  function ReturningUids(cs: seq<ClickDoc>): set<string>
  {
    set u | u in UidsOf(cs) && multiset(UidsOf(cs))[u] > 1
  }

  /** The counted location keys, in click order, one entry per click that is counted. */
  function KeysOf(cs: seq<ClickDoc>): (ks: seq<LocationKey>)
    ensures |ks| <= |cs|
  {
    if cs == [] then []
    else
      var last := cs[|cs| - 1];
      assert cs == cs[..|cs| - 1] + [last];
      KeysOf(cs[..|cs| - 1]) + (if KeyOf(last.geo).Some? then [KeyOf(last.geo).value] else [])
  }

  /** How many clicks were counted under key k. */
  function Freq(ks: seq<LocationKey>, k: LocationKey): nat
  {
    multiset(ks)[k]
  }

  /** The distinct keys in order of first occurrence: the insertion order of the frequency table. */
  function FirstSeen(ks: seq<LocationKey>): seq<LocationKey>
  {
    if ks == [] then []
    else
      var prev := FirstSeen(ks[..|ks| - 1]);
      var last := ks[|ks| - 1];
      assert ks == ks[..|ks| - 1] + [last];
      if last in prev then prev else prev + [last]
  }

  /** The position of the first occurrence of k. */
  function FirstIndex(ks: seq<LocationKey>, k: LocationKey): (i: nat)
    requires k in ks
    ensures i < |ks| && ks[i] == k
    ensures forall j :: 0 <= j < i ==> ks[j] != k
  {
    if ks[0] == k then 0 else 1 + FirstIndex(ks[1..], k)
  }

  /**
   * The key of largest frequency, scanning `order` from the front and
   * replacing the best so far only on a strictly larger count (Python's `max`).
   */
  function MaxFirst(order: seq<LocationKey>, ks: seq<LocationKey>): (best: LocationKey)
    requires |order| > 0
    ensures best in order
  {
    if |order| == 1 then order[0]
    else
      var best := MaxFirst(order[..|order| - 1], ks);
      var last := order[|order| - 1];
      if Freq(ks, last) > Freq(ks, best) then last else best
  }

  /** The location result, chosen in the order of the source. */
  function DominantOf(cs: seq<ClickDoc>): Dominant
  {
    var ks := KeysOf(cs);
    if |ks| > 0 then Place(MaxFirst(FirstSeen(ks), ks))
    else if |cs| == 0 then NoClicks
    else NoPublicGeo
  }

  /** The text of a chosen key. */
  function RenderKey(k: LocationKey): string
  {
    if Truthy(k.city) && k.city.value != UNKNOWN then k.city.value + ", " + k.country
    else if k.country != "" && k.country != UNKNOWN then k.country
    else UNKNOWN_LOCATION
  }

  function RenderDominant(d: Dominant): string
  {
    match d
    case NoClicks => NO_CLICKS
    case NoPublicGeo => NO_PUBLIC_GEO
    case Place(k) => RenderKey(k)
  }

  predicate IsActiveLinkOf(l: Link, user: UserId, now: int)
  {
    l.owner == Some(user) && l.expiresAt > now
  }

  /** The number of the user's links that have not expired at `now`. */
  function ActiveLinkCount(links: seq<Link>, user: UserId, now: int): (n: nat)
    ensures n <= |links|
  {
    if links == [] then 0
    else
      ActiveLinkCount(links[..|links| - 1], user, now)
      + (if IsActiveLinkOf(links[|links| - 1], user, now) then 1 else 0)
  }

  /** The whole summary for one user at one instant. */
  function StatsOf(links: seq<Link>, log: seq<ClickDoc>, user: UserId, now: int): Stats
  {
    var cs := UserClicks(log, user);
    Stats(ActiveLinkCount(links, user, now), |DistinctUids(cs)|, |ReturningUids(cs)|,
          RenderDominant(DominantOf(cs)))
  }
}

=== FILE: text.dfy ===
/** String helpers shared by the classifier and the URL normaliser. */
module Text {
  import opened Wrappers

  /** Python's `s.startswith(prefix)`. */
  predicate StartsWith(s: string, prefix: string)
  {
    |prefix| <= |s| && s[..|prefix|] == prefix
  }

  predicate IsDigit(c: char)
  {
    '0' <= c <= '9'
  }

  predicate AllDigits(s: string)
  {
    forall i :: 0 <= i < |s| ==> IsDigit(s[i])
  }

  /** Python truthiness of an optional string: present and non-empty. */
  predicate Truthy(s: Option<string>)
  {
    s.Some? && s.value != ""
  }

  lemma StartsWithConcat(prefix: string, rest: string)
    ensures StartsWith(prefix + rest, prefix)
  {
    assert (prefix + rest)[..|prefix|] == prefix;
  }
}

=== FILE: validation.dfy ===
/** Input checks of the signup and shorten endpoints. */
module Validation {
  import opened Wrappers
  import opened Text

  const HTTP_SCHEME: string := "http://"
  const HTTPS_SCHEME: string := "https://"

  predicate HasScheme(url: string)
  {
    StartsWith(url, HTTP_SCHEME) || StartsWith(url, HTTPS_SCHEME)
  }

  /** Prefixes `https://` unless the URL already starts with `http://` or `https://` (case-sensitive). */
  function NormalizeUrl(url: string): (r: string)
    ensures HasScheme(r)
    ensures HasScheme(url) ==> r == url
    ensures !HasScheme(url) ==> r == HTTPS_SCHEME + url
  {
    if HasScheme(url) then url
    else
      StartsWithConcat(HTTPS_SCHEME, url);
      HTTPS_SCHEME + url
  }

  lemma NormalizeUrlIdempotent(url: string)
    ensures NormalizeUrl(NormalizeUrl(url)) == NormalizeUrl(url)
  {
  }

  datatype UrlError = LongUrlRequired

  /** The `long_url` field of a shorten request: required, then normalised. */
  function CheckLongUrl(longUrl: Option<string>): (r: Result<string, UrlError>)
    ensures r.Failure? <==> !Truthy(longUrl)
    ensures r.Success? ==> r.value == NormalizeUrl(longUrl.value) && HasScheme(r.value)
  {
    if !Truthy(longUrl) then Failure(LongUrlRequired) else Success(NormalizeUrl(longUrl.value))
  }

  const MIN_USERNAME_LENGTH: nat := 3
  const MIN_PASSWORD_LENGTH: nat := 6

  datatype SignupError =
    | CredentialsRequired   // "Username and password are required"
    | CredentialsTooShort   // "Username must be at least 3 characters, password at least 6 characters"

  /** The credential checks of signup, before the username-uniqueness lookup. */
  function CheckSignup(username: Option<string>, password: Option<string>): (r: Option<SignupError>)
    ensures r.None? <==>
              username.Some? && password.Some?
              && |username.value| >= MIN_USERNAME_LENGTH && |password.value| >= MIN_PASSWORD_LENGTH
    ensures r == Some(CredentialsRequired) <==> !Truthy(username) || !Truthy(password)
  {
    if !Truthy(username) || !Truthy(password) then Some(CredentialsRequired)
    else if |username.value| < MIN_USERNAME_LENGTH || |password.value| < MIN_PASSWORD_LENGTH then Some(CredentialsTooShort)
    else None
  }
}

=== FILE: wrappers.dfy ===
/** Optional values (a JSON field or a request header that may be missing) and results with an error. */
module Wrappers {

  datatype Option<+T> = None | Some(value: T) {

    /** The carried value, or `default` when there is none (Python's `d.get(k, default)`). */
    function GetOr(default: T): T
    {
      match this
      case Some(v) => v
      case None => default
    }
  }

  datatype Result<+R, +E> = Success(value: R) | Failure(error: E)
}
